=== FILE: README.md ===
# Amtraker v3 core, modelled in Dafny

Amtraker v3 is a small server. It fetches Amtrak's encrypted train and
station feeds, cleans them into per-train records and caches the result.
cron.ts defines a small crontab scheduler. index.ts fills the cache once,
at start-up. This project models the decision logic of that server as pure Dafny
functions and proves properties of it:

- **Cron scheduler** (cron.ts):
  - `cronPartMatches` matches one crontab field against a component of the
    current time. It handles `*`, plain numbers, three-letter month and day
    names, `a-b` ranges and `/n` steps.
  - `timeForCron` combines the five fields, with the day-of-month OR
    day-of-week rule.
  - `Cron.add` checks the schedule's shape with a regular expression.
  - `Cron.start` filters the registered jobs that are due.
- **Station cleaning** (index.ts):
  - `parseDate` returns null for a missing date or code.
  - `generateCmnt` writes the lateness comment: "On Time",
    "5 Minutes Late", "2 Hours, 10 Minutes Late", "-3 Minutes Early", …
  - `parseRawStation` turns a raw station record into a `Station`. It sets
    a status (Enroute, Station, Departed) and picks the arrival and
    departure instants and their comments.
- **Feed handling** (index.ts):
  - The payload is split into a ciphertext body and an 88-character
    trailer. The trailer holds the encrypted private key. The key is the
    part of the decrypted trailer before the first `|`.
  - Raw stations are collected from the slots `Station1` … `Station40`.
    Missing and unparsable slots are skipped, and so is the `CBN` station.
  - Cleaned trains are grouped by train number.
- **Cache** (cache.ts): the constructor, `get` and `set` of the response
  cache.

## Layout

| file | module | what |
|---|---|---|
| wrappers.dfy | `Wrappers` | `Option`, `Result` |
| strings.dfy | `Strings` | JavaScript `split`, `trim`, `toLowerCase` on ASCII, `String(n)` |
| cron_fields.dfy | `CronFields` | `cronPartMatches`, `timeForCron`, the range and step regular expressions |
| cron_shape.dfy | `CronShape` | the crontab shape regular expression of `Cron.add` |
| scheduler.dfy | `Scheduler` | `Cron.add`, the due-job filter of `Cron.start`, the `Cron` class |
| dates.dfy | `Dates` | `parseDate`; the hours and minutes of a moment duration |
| lateness.dfy | `Lateness` | `generateCmnt` |
| stations.dfy | `Stations` | `parseRawStation` |
| payload.dfy | `Payload` | payload split, private key extraction |
| feed.dfy | `Feed` | slot collection, grouping by train number |
| train_cache.dfy | `TrainCache` | the cache |

## Modelling choices

- **JavaScript values.** Strings are `seq<char>` and numbers are unbounded
  integers. A value that may be `undefined` is an outer `Option`. A value
  that may be `null` is an inner `Option`. So a `Station` field never
  assigned is `None`, and one assigned `parseDate`'s `null` is `Some(None)`.
- **Regular expressions** are modelled as the leftmost search they perform:
  - The range pattern `(\d+)-(\d+)` matches around the first `-` that has a
    digit on both sides. Its groups are the maximal digit runs there.
  - The step pattern `[\d-*]+\/(\d+)` matches around the first `/` that
    follows a digit, `-` or `*` and precedes a digit.
  - The shape pattern of `Cron.add` is unanchored: somewhere in the
    schedule, five tokens separated by single spaces. A token is a run of
    digits and `*`..`/`, or three ASCII letters.
- **Arithmetic.** JavaScript `%` truncates toward zero (`JsRem`). A step of
  0 gives `NaN`, which never equals 0. moment's duration `hours()` and
  `minutes()` truncate toward zero and keep the sign; hours wrap at a day.
- **Clocks, parsing, crypto.** The current time is a `Now` parameter. Date
  parsing and time-zone conversion are the `parse` function of an `Env`;
  a date moment finds invalid is `None`. AES decryption and `JSON.parse`
  are function parameters too.

Where the code and its documentation disagree, the model follows the code:

- `generateCmnt` adds the hours clause only when the hours part is
  positive.
- Early comments carry negative minutes ("-4 Minutes Early").
- A train late by 1 hour 2 minutes is "On Time": only the minutes part is
  compared with 5. Days are dropped altogether.
- A train exactly on schedule is "0 Minutes Early".
- A missing or invalid date gives "NaN Minutes Early".
- `parseRawStation` never sets the `Unknown` status. A record with an
  actual arrival but neither an actual nor an estimated departure gets no
  status at all.
- The "last station, arrived" branch sits inside the test that `postarr`
  is null, so no record reaches it.
- The last station's arrival comment uses `scharr` alone. Interior
  stations fall back to `schdep`.
- A response shorter than 88 characters is not rejected: the body is
  empty and the trailer is a suffix of the data (`substr` with a negative
  start).
- `Cron.add` accepts numbers outside a field's range ("75 * * * *").
  Such a number in the minute, hour or month field makes the job never
  due. The two day fields are the exception: `timeForCron` ORs them, so
  "0 0 32 * *" and "0 0 * * 9" run every midnight through their `*` day
  field.

## Model

| member | source | states |
|---|---|---|
| Strings.Split | cron.ts:84 | `split` on one character: one more piece than separators, and no piece contains the separator |
| Strings.JoinSplit | cron.ts:84 | joining the pieces of a split with the separator gives back the original text |
| Strings.SplitJoin | cron.ts:84 | splitting separator-free pieces joined by the separator gives back the pieces |
| Strings.SplitNoSeparator | cron.ts:33 | text without the separator splits into itself alone |
| Strings.SplitPrefix | cron.ts:84 | a separator-free prefix becomes part of the first piece and leaves the others alone |
| Strings.SplitHead | index.ts:52 | the first piece of a split is the longest separator-free prefix of the text |
| Strings.TrimStart | cron.ts:33 | removes exactly the leading whitespace: the result is a suffix, everything before it is whitespace, and it does not start with whitespace |
| Strings.TrimEnd | cron.ts:33 | removes exactly the trailing whitespace, dually |
| Strings.Trim | cron.ts:33 | the trimmed item neither starts nor ends with whitespace |
| Strings.TrimNoWhitespace | cron.ts:33 | an item without whitespace is left unchanged by `trim` |
| Strings.ToLowerAscii | cron.ts:43 | lower-cases character by character and keeps the length |
| Strings.NatToString | cron.ts:39 | `String(n)` of a natural is a digit string without a leading zero whose decimal value is `n` |
| Strings.DigitsValue | cron.ts:60-69 | definition of `parseInt` on a digit string; `Strings.NatToString` reads back through it and `Strings.LeadingZeroIgnored` characterises it |
| Strings.LeadingZeroIgnored | cron.ts:60-69 | `parseInt` skips a leading zero: "0" + s reads as s |
| Strings.IntToString | cron.ts:39 | `String(v)` is digits, preceded by `-` exactly for negatives, and the digits read back as the magnitude of `v` |
| Strings.IntToStringInjective | cron.ts:39 | two integers with the same decimal text are equal |
| Strings.IntToStringEquals | cron.ts:39 | an item equals `String(v)` for at most one value `v` |
| CronFields.FindSeparator | cron.ts:50-51 | finds the leftmost position where the range or step pattern can match, or reports that none exists |
| CronFields.DigitRunStart | cron.ts:50 | a capture group extends left over the maximal run of digits |
| CronFields.DigitRunEnd | cron.ts:50-51 | a capture group extends right over the maximal run of digits |
| CronFields.RangeMatch | cron.ts:50 | `match(/(\d+)-(\d+)/)` is non-null exactly when some `-` has a digit on both sides; `CronFields.RangeMatchAt` and `CronFields.RangeMatchOf` give its bounds |
| CronFields.StepMatch | cron.ts:51 | `match(/[\d-*]+\/(\d+)/)` is non-null exactly when some `/` follows a digit, `-` or `*` and precedes a digit; `CronFields.StepMatchAt` and `CronFields.StepMatchOf` give its step |
| CronFields.JsRem | cron.ts:70 | JavaScript `%`: the Euclidean remainder for non-negative offsets; zero or negative, above `-n`, for negative ones |
| CronFields.JsRemCongruent | cron.ts:70 | the remainder differs from the offset by a multiple of the step, which with the bounds of `JsRem` fixes its value |
| CronFields.JsRemZero | cron.ts:70 | the step test `offset % step === 0` holds exactly when the step divides the offset, for negative offsets too |
| CronFields.StepHits | cron.ts:70 | definition of `(offset % step) === 0`; characterised by `CronFields.StepHitsDivides` |
| CronFields.StepHitsDivides | cron.ts:70 | the step test holds exactly when the step is positive and divides the offset, so a step of 0 (NaN) never matches |
| CronFields.ItemMatches | cron.ts:35-80 | definition of the `some` callback, branch by branch; characterised by `CronFields.StarField`, `CronFields.DigitItemMatches`, `CronFields.NameItemMatches`, `CronFields.RangeItemMatches`, `CronFields.RangeStepItemMatches` and `CronFields.StepItemMatches` |
| CronFields.PatternMatches | cron.ts:50-80 | definition of the range and step branches; characterised by `CronFields.RangeItemMatches`, `CronFields.RangeStepItemMatches` and `CronFields.StepItemMatches` |
| CronFields.Items | cron.ts:33 | the items of a field are its comma-separated pieces, each trimmed, in order |
| CronFields.AnyItemMatches | cron.ts:35-80 | `some` over the items: true exactly when one item matches |
| CronFields.FieldMatches | cron.ts:30-81 | definition of `cronPartMatches`; characterised by `CronFields.FieldMatchesSomeItem` |
| CronFields.FieldMatchesSomeItem | cron.ts:30-81 | a field matches a time component iff one of its trimmed comma-separated items matches it |
| CronFields.MonthName | cron.ts:43-45 | `months[currPart - 1]` is defined exactly for 1..12 and is three characters long |
| CronFields.DayName | cron.ts:46-48 | `days[currPart]` is defined exactly for 0..6 and is three characters long |
| CronFields.NamesAreLetters | cron.ts:6-20 | every month and day name has three ASCII letters |
| CronFields.NotAName | cron.ts:43-48 | an item containing a non-letter is never taken for a month or day name |
| CronFields.DecimalChars | cron.ts:39 | the text of a number has only digits, apart from a leading minus |
| CronFields.OnlyPatternsApply | cron.ts:35-80 | an item with a character that is neither a digit nor a letter (other than a leading `-`) matches only through the range and step patterns |
| CronFields.NoSlashNoStep | cron.ts:51 | an item without `/` has no step |
| CronFields.DigitItemMatches | cron.ts:35-80 | an all-digit item matches exactly the value whose decimal text it is |
| CronFields.LeadingZeroNeverMatches | cron.ts:39 | an item such as "05" matches no value, since `String(5)` is "5" |
| CronFields.NameItemMatches | cron.ts:43-48 | a three-letter item matches exactly its month in the month field or its weekday in the day-of-week field, case-insensitively, and nothing in other fields |
| CronFields.JanuaryIsMonthOne | cron.ts:43-45 | "jan" in any case matches month 1 and no other |
| CronFields.SundayIsDayZero | cron.ts:46-48 | "sun" matches weekday 0 only, and never in the month or minute field |
| CronFields.DigitRunStartIs | cron.ts:50 | the left end of a digit run is the position after the last non-digit |
| CronFields.DigitRunEndIs | cron.ts:50-51 | the right end of a digit run is the first non-digit |
| CronFields.FindSeparatorIs | cron.ts:50-51 | a separator with no earlier one is the one the search finds |
| CronFields.RangeMatchDigits | cron.ts:50-63 | for digit strings `A-B` followed by a non-digit, the captured bounds are the values of A and B |
| CronFields.RangeSeparatorOf | cron.ts:50 | in `A-B`, the range pattern matches at the dash after `A` |
| CronFields.RangeMatchAt | cron.ts:50-61 | with the separator found between two digit runs, the bounds are the values of the runs |
| CronFields.RangeMatchOf | cron.ts:50-63 | the range pattern reads the bounds `a` and `b` back from `a-b` |
| CronFields.StepSeparatorOf | cron.ts:51 | in `base/N`, the step pattern matches at the slash |
| CronFields.StepMatchDigits | cron.ts:51 | the step pattern captures the value of the digits after the slash |
| CronFields.StepMatchAt | cron.ts:51 | with the separator found and only digits after it, the step is the value of those digits |
| CronFields.StepMatchOf | cron.ts:51-69 | the step pattern reads the step `n` back from `base/n` |
| CronFields.RangeItemMatches | cron.ts:59-74 | `a-b` matches exactly the values from a to b, inclusive |
| CronFields.NoSlashInRange | cron.ts:51 | a plain range has no step |
| CronFields.RangeStepPatterns | cron.ts:50-51 | `a-b/n` yields the range (a, b) and the step n |
| CronFields.RangeIsStepBase | cron.ts:51 | every character of a range `a-b` is one the step pattern accepts before `/` |
| CronFields.RangeStepItemMatches | cron.ts:59-74 | `a-b/n` matches v iff a ≤ v ≤ b, n ≠ 0 and n divides v − a |
| CronFields.StepItemMatches | cron.ts:68-77 | `*/n` or `digits/n` without a range matches a non-negative v iff n ≠ 0 and n divides v, whatever the base |
| CronFields.SingleItemField | cron.ts:33-35 | a field with no comma and no whitespace matches as its single item does |
| CronFields.SingleItem | cron.ts:33 | a field with no comma and no whitespace has itself as its only item |
| CronFields.StarField | cron.ts:37 | `*` matches every value |
| CronFields.TimeForCron | cron.ts:83-101 | `timeForCron` fails, naming the field count, exactly when the schedule has fewer than five space-separated fields; its value is characterised by `CronFields.ScheduleOfFields` |
| CronFields.ScheduleOfFields | cron.ts:83-101 | a five-field schedule is due iff minute, hour and month match and day-of-month or day-of-week matches |
| CronFields.StarFieldsMatchEverything | cron.ts:83-101 | five stars are due at every time |
| CronFields.AllStarsMatchEverything | cron.ts:83-101 | "* * * * *" is due at every time |
| CronFields.DayOfWeekIgnoredUnderStar | cron.ts:95-100 | when day-of-month is `*`, the day-of-week field makes no difference |
| CronFields.NumberField | cron.ts:39 | a field holding the number n matches exactly the value n |
| CronFields.DayOrWeekday | cron.ts:91-100 | `m h d * w` is due at minute m and hour h on day d of the month or on weekday w |
| CronFields.FifteenthOrMonday | cron.ts:91-100 | "0 0 15 * 1" is due at midnight on the 15th and on every Monday |
| CronFields.FifteenthOrMondayFields | cron.ts:84 | "0 0 15 * 1" splits into the five fields it spells |
| CronFields.QuarterHourSteps | cron.ts:68-77 | "*/15" and "5/15" both match minutes 0, 15, 30 and 45 only: the base before the slash is ignored |
| CronFields.EveryThirdFromOne | cron.ts:59-74 | "1-10/3" matches 1, 4, 7 and 10 only |
| CronFields.RangeStepZeroNeverMatches | cron.ts:68-74 | a step of 0 in a range matches nothing (`% 0` is `NaN`) |
| CronFields.StarStepZeroNeverMatches | cron.ts:68-77 | "*/0" matches nothing |
| CronFields.ZeroText | cron.ts:39 | `String(0)` is "0" |
| CronShape.ShapeOk | cron.ts:112 | definition of the unanchored shape match; `CronShape.TokenFieldsPass` is a sufficient and `CronShape.TooFewSpacesRejected` a necessary condition |
| CronShape.TokenRunEnd | cron.ts:112 | a `[\d*-/]+` token extends over the maximal run of token characters |
| CronShape.TokenThenSpace | cron.ts:112 | a token followed by a space ends with that space |
| CronShape.ChainSpaces | cron.ts:112 | a chain of k token-space pairs holds at least k spaces |
| CronShape.ShapeOkHasFiveFields | cron.ts:110-115 | every schedule `add` accepts splits into at least five space-separated fields |
| CronShape.CountSuffix | cron.ts:112 | a suffix holds no more spaces than the whole schedule |
| CronShape.JoinedTokensChain | cron.ts:112 | token fields joined by single spaces form a chain of the length the regular expression repeats |
| CronShape.TokenRunEndIs | cron.ts:112 | the end of a token is the first character that is not a token character |
| CronShape.TokenFieldsPass | cron.ts:110-116 | five non-empty fields of digits and `*`..`/` joined by spaces are accepted |
| CronShape.TooFewSpacesRejected | cron.ts:111-115 | a schedule with fewer than four spaces is rejected |
| Scheduler.AddError.Message | cron.ts:114 | the message is "invalid crontab: ", the schedule, then "!", so the schedule can be read back from it |
| Scheduler.AddJob | cron.ts:110-117 | `add` fails with "invalid crontab" exactly when the shape check fails; otherwise it appends the job and keeps the earlier jobs in order |
| Scheduler.Select | cron.ts:123-127 | the filter succeeds iff every test succeeds; it keeps exactly the due jobs, and no more than there were |
| Scheduler.SelectAppend | cron.ts:124-125 | filtering a concatenation is filtering each part and concatenating |
| Scheduler.SelectSingle | cron.ts:125 | a single job is kept iff it is due |
| Scheduler.DueAt | cron.ts:125 | definition of the filter's callback at one `now`; `Scheduler.SelectDue` states the filter |
| Scheduler.SelectDue | cron.ts:119-128 | the jobs `start` runs are exactly the registered jobs whose schedule is due now |
| Scheduler.AddThenSelect | cron.ts:110-128 | after `add`, the jobs run are the old ones plus the new job when it is due |
| Scheduler.RegisteredJobsSelect | cron.ts:110-128 | for jobs that passed `add`, the due filter never meets a missing field |
| Scheduler.EveryMinuteShapeOk | cron.ts:112 | "* * * * *" passes the shape check |
| Scheduler.EveryMinuteJobIsSelected | cron.ts:110-128 | a job added with "* * * * *" runs at every `start` |
| Scheduler.OutOfRangeMinuteAcceptedNeverDue | cron.ts:83-117 | `add` accepts a minute of 60 or more, and such a job is never due |
| Scheduler.OutOfRangeMinuteAccepted | cron.ts:110-117 | `add` accepts `n * * * *` for every number `n` |
| Scheduler.OutOfRangeMinuteNeverDue | cron.ts:83-101 | `n * * * *` with `n` of 60 or more is never due at a valid time |
| Scheduler.MinuteThenStars | cron.ts:84 | `m * * * *` splits into the minute field and four stars |
| Scheduler.DayOfMonthOutOfRangeStillDue | cron.ts:83-117 | `add` accepts `0 0 d * *` for every number `d`, out of range included, and the job is due at every midnight through the `*` day-of-week |
| Scheduler.DayOfWeekOutOfRangeStillDue | cron.ts:83-117 | `add` accepts `0 0 * * w` for every number `w`, out of range included, and the job is due at every midnight through the `*` day-of-month |
| Scheduler.MidnightAccepted | cron.ts:110-117 | `add` accepts `0 0 d * w` when both day fields are non-empty runs of token characters |
| Scheduler.MidnightSchedule | cron.ts:83-101 | `0 0 d * w` is due exactly at midnight when its day-of-month or its day-of-week field matches |
| Scheduler.MidnightFields | cron.ts:84 | `0 0 d * w` splits into its five written fields |
| Scheduler.Cron.Add | cron.ts:110-117 | the stored jobs grow by the new job exactly when the shape check passes, and are unchanged otherwise |
| Scheduler.Cron.Start | cron.ts:119-128 | the jobs returned are the due subset of the stored jobs |
| Dates.ZoneOf | index.ts:77 | the station's zone, or the empty zone name when the code is unknown |
| Dates.ParseDate | index.ts:70-89 | null when the date or the code is missing; otherwise exactly what the parser makes of the date in the station's zone, null included |
| Dates.Minutes | index.ts:104-106 | the minutes part of a duration: 0..59 for non-negative durations, -59..0 for negative ones |
| Dates.Hours | index.ts:104-106 | the hours part of a duration: 0..23 for non-negative durations, -23..0 for negative ones |
| Dates.PartsDecompose | index.ts:102-106 | the time of day of a duration is its hours, its minutes and the remaining milliseconds |
| Dates.PartsIgnoreDays | index.ts:104-106 | whole days added to a duration do not change its hours or minutes |
| Dates.PartsOf | index.ts:104-106 | a duration built from h < 24 hours, m < 60 minutes and less than a minute has hours part h and minutes part m |
| Dates.PartsOfNegative | index.ts:104-106 | a negated duration has negated hours and minutes |
| Lateness.Text | index.ts:108-114 | an early verdict with no positive hours reads "<minutes> Minutes Early" |
| Lateness.TextOnTime | index.ts:108-114 | the comment is "On Time" iff the verdict is on time |
| Lateness.TextSaysLate | index.ts:98-114 | an offset comment ends in "Late" iff the train is late |
| Lateness.Assess | index.ts:96-110 | not a number when either date is null; on time iff actual is after scheduled with a minutes part under 5; otherwise the signed hours and minutes of the difference |
| Lateness.LateVerdictMatchesDuration | index.ts:102-106 | a late verdict's hours and minutes are the time-of-day parts of the delay |
| Lateness.GenerateCmnt | index.ts:91-115 | "NaN Minutes Early" when any input is null or a date does not parse; "On Time" iff both dates parse, the actual is later and the minutes part is under 5; otherwise the text of the signed hours and minutes parts of the difference, Late iff the actual is later |
| Lateness.CommentLateWithinTheHour | index.ts:91-115 | two raw texts that parse to instants 5 to 59 minutes apart give "<m> Minutes Late" |
| Lateness.LateByWholeHoursIsOnTime | index.ts:104-111 | a train late by whole hours plus under five minutes is "On Time" |
| Lateness.LateWithinTheHour | index.ts:98-114 | late by 5 to 59 minutes reads "<m> Minutes Late" with no hours clause |
| Lateness.LateByHoursAndMinutes | index.ts:105-114 | late by h hours and m ≥ 5 minutes reads "<h> Hours, <m> Minutes Late" |
| Lateness.EarlyWithinTheHour | index.ts:98-106 | early by m minutes gives minutes part −m and no hours |
| Lateness.ExactlyOnScheduleIsEarly | index.ts:98-100 | equal times are "Early" by 0 minutes, not on time |
| Lateness.ZeroMinutesEarlyText | index.ts:108-113 | that verdict reads "0 Minutes Early" |
| Lateness.EarlyTextsDistinguishMinutes | index.ts:108-113 | early comments of different minutes differ |
| Stations.Classify | index.ts:124-214 | the first-station branches are taken iff there is neither an estimated nor an actual arrival; no branch is taken iff an actual arrival has neither departure time; the last-arrived branch is never taken |
| Stations.StatusOf | index.ts:124-214 | definition of the status each branch assigns; `Stations.Assign` and `Stations.StatusByPresence` state it per raw record |
| Stations.OrElse | index.ts:174 | `??`: the first value if present, else the second |
| Stations.ArrivalText | index.ts:159-205 | definition of the raw arrival time used: `estarr` while en route, `postarr` otherwise; used by the contract of `Stations.Assign` |
| Stations.DepartureText | index.ts:129-210 | definition of the raw departure time used: `postdep` once departed, `estdep` otherwise; used by the contract of `Stations.Assign` |
| Stations.ArrivalSchedule | index.ts:152-204 | `scharr` whenever it is present; `schdep` replaces a missing one only away from the last station |
| Stations.Assign | index.ts:117-214 | the status follows the branch; an arrival is set iff a status is and an arrival time is known, a departure iff a status is and the station is not the last; arrivals come from the estimate while en route and from the actual time otherwise, departures from the actual time once departed and from the estimate otherwise; each comparison uses `schdep` for departures, `scharr` alone at the last station and `scharr ?? schdep` elsewhere |
| Stations.Lookup | index.ts:217-219 | a metadata lookup is present iff the code is a key, with the stored value |
| Stations.ParseRawStation | index.ts:117-229 | copies code and bus, looks up name and zone, parses the schedule; never sets Unknown; leaves the status and all four times and comments unset exactly for an arrived station without departure times; otherwise fills arrival and departure from the raw time and schedule the station's state selects, each time together with its comment |
| Stations.StatusByPresence | index.ts:124-214 | the status as a function of which estimated and actual times are present |
| Stations.DepartureRecordedMeansDeparted | index.ts:124-213 | with an actual departure and no estimated one, the station is Departed at that departure |
| Stations.FirstStationHasNoArrival | index.ts:124-144 | a first station has a departure and no arrival |
| Stations.LastStationIsEnroute | index.ts:145-165 | a last station is Enroute at its estimated arrival, with no departure |
| Stations.LastStationIgnoresScheduledDeparture | index.ts:156-164 | at the last station, a missing scheduled arrival gives "NaN Minutes Early" |
| Stations.InteriorFallsBackToScheduledDeparture | index.ts:168-177 | at an interior station, a missing scheduled arrival is replaced by the scheduled departure |
| Stations.DepartedWithoutArrival | index.ts:198-207 | departed with no actual arrival: the arrival is null and its comment "NaN Minutes Early" |
| Payload.JsSubstring | index.ts:47 | `substring` with in-range bounds is the slice; with non-positive bounds it is empty |
| Payload.JsSubstr | index.ts:48-51 | `substr` from an in-range start takes `length` characters, cut at the end of the string; a negative start counts from the end |
| Payload.MainContent | index.ts:47 | the body is all but the last 88 characters, or empty for a short response |
| Payload.EncryptedPrivateKey | index.ts:48-51 | the trailer is the last 88 characters; a short response yields the suffix from 2·length − 88 |
| Payload.SplitRoundTrip | index.ts:47-51 | body followed by trailer is the response, and the trailer has 88 characters |
| Payload.ShortResponse | index.ts:47-51 | a response under 88 characters has an empty body and a trailer that is a suffix, the whole response up to 44 characters |
| Payload.KeyBeforeBar | index.ts:52 | the key is the longest prefix without `|` |
| Payload.KeyBeforeBarOf | index.ts:52 | `key|rest` yields `key` for a `|`-free key |
| Payload.PrivateKey | index.ts:52 | the private key exists iff the trailer decrypts under the public key, and is its part before `|` |
| Payload.Plaintext | index.ts:53 | with a private key, the plaintext is exactly the decryption of the body under it; nothing without a key |
| Payload.EnvelopeOpens | index.ts:47-53 | a body followed by a trailer that decrypts to `key|rest` opens to the body decrypted with that key |
| Feed.SlotKey | index.ts:261 | slot `i` is named "Station" followed by the decimal digits of `i` |
| Feed.SlotStation | index.ts:261-268 | a slot contributes a station iff it is present and non-null, its text parses, and the code is not "CBN" |
| Feed.CollectedUpTo | index.ts:258-274 | at most one station per slot, and never "CBN" |
| Feed.CollectRawStations | index.ts:258-274 | the loop over slots 1..40 collects exactly the contributing stations in slot order: at most 40, none "CBN" |
| Feed.CollectedOnlyReadsSlots | index.ts:260-261 | the result depends only on the slot properties |
| Feed.SlotStationsAreCollected | index.ts:260-274 | every contributing slot's station is collected |
| Feed.CollectedComeFromSlots | index.ts:260-274 | every collected station comes from a contributing slot |
| Feed.Filtered | index.ts:309-310 | the trains of one number, in feed order |
| Feed.NumbersOf | index.ts:309 | the train numbers that occur in the feed |
| Feed.FilteredAppend | index.ts:309-310 | the trains of a number in two feeds are those of each, concatenated |
| Feed.FilteredAbsent | index.ts:309-310 | a number that does not occur has no trains |
| Feed.Push | index.ts:309-310 | a push appends the train to its number's group, starting an empty group for a new number, and leaves the other groups alone |
| Feed.NumbersOfSnoc | index.ts:309 | one more train adds its number |
| Feed.FilteredSnoc | index.ts:310 | one more train is appended to its own number's group only |
| Feed.GroupStep | index.ts:255-311 | pushing the next train keeps the groups correct |
| Feed.GroupByTrainNum | index.ts:255-311 | the keys are exactly the train numbers seen, and each group holds that number's trains in feed order |
| TrainCache.Placeholder | cache.ts:7 | the placeholder response has the single key "test", with no trains |
| TrainCache.Init | cache.ts:6-9 | a new cache holds only the placeholder under "trains" |
| TrainCache.Get | cache.ts:11-13 | `get` answers exactly for stored keys, with the stored value |
| TrainCache.Set | cache.ts:15-17 | `set` makes `get` return the new data for its key and leaves every other key's answer unchanged |
| TrainCache.InitAnswers | cache.ts:6-13 | a new cache answers the placeholder for "trains" and nothing for any other key |
| TrainCache.SetSet | cache.ts:15-17 | the second of two sets to the same key wins |
| TrainCache.SetCommutes | cache.ts:15-17 | sets to different keys commute |
| TrainCache.SetIdempotent | cache.ts:15-17 | setting the value a key already holds changes nothing |
| TrainCache.SetTrainsReplacesPlaceholder | cache.ts:6-17 | setting "trains" on a new cache replaces the placeholder and adds no key |

## Left out

- I/O is not modelled: `fetch`, the HTTP server and its routes, console logging and the `Promise.allSettled` bookkeeping.
- The start-up call of `updateTrains` in index.ts is not modelled as a schedule: it runs once, and the periodic refresh through another scheduling library is commented out there.
- Running the job functions is out of scope; the scheduler stops at choosing the due jobs.
- The re-arming `setTimeout` of `start` is a clock effect; `now` is a parameter.
- AES decryption (crypto-js with PBKDF2) is a parameter of the model.
- `JSON.parse` is a parameter, and so are moment's date parsing, formatting and time-zone conversion. A parsed date is represented by its instant rather than by the ISO text `parseDate` returns.
- Of a cleaned train record, only its train number, used for grouping, is modelled. The route, heading, velocity, `trainID` and timestamps are copied or parsed without decisions.
- `setStation` and `setTrains`, called by index.ts, are not defined in cache.ts. They are not part of this model, and neither is the station-list loop that feeds `setStation`.
- `TrainCache.Get`: keys that hit the JavaScript object's own members (`get`, `set`, `constructor`, prototype keys) are not modelled; the cache is a plain map.
- `Strings.ToLowerAscii`: lower-cases ASCII letters only; `toLowerCase` also maps non-ASCII letters, which cannot equal a month or day name anyway.
- `Dates.ParseDate`: an unknown station code gives the zone name ""; moment-timezone then yields no moment and the source returns null, but the model leaves the parser's result under "" to the `parse` parameter.
- `CronFields.RangeMatch`: `parseInt` of very long digit runs loses precision in JavaScript; the model reads them exactly.
- `Strings.Trim`: its contract states only the ends of the result; `Strings.TrimStart` and `Strings.TrimEnd` state the exact effect of each half.
- `Lateness.Text`: its contract fixes only the early form without hours; `Lateness.TextOnTime`, `Lateness.TextSaysLate`, `Lateness.LateWithinTheHour` and `Lateness.LateByHoursAndMinutes` state the other forms.
- `Scheduler.Cron.Start`: `start` evaluates a field beyond the end of a short schedule as `undefined`, and `split` then throws, rejecting the promise. The model reports a missing field as an error result instead; jobs that passed `add` never meet it.

=== FILE: cron_fields.dfy ===
/** Matching one wall-clock instant against a five-field crontab
    (`cronPartMatches` and `timeForCron` in cron.ts). */
module CronFields {
  import opened Wrappers
  import opened Strings

  /** The five fields of a crontab, in the order `timeForCron` reads them. */
  datatype Part = Minute | Hour | DayOfMonth | Month | DayOfWeek

  /** The components of `now` that the matcher reads from a `Date`. */
  datatype Now = Now(minute: int, hour: int, dayOfMonth: int, month: int, dayOfWeek: int) {

    /** The ranges a `Date` produces: month is 1-based, Sunday is weekday 0. */
    predicate Valid() {
      && 0 <= minute < 60 && 0 <= hour < 24 && 1 <= dayOfMonth <= 31
      && 1 <= month <= 12 && 0 <= dayOfWeek < 7
    }
  }

  /** Why `timeForCron` throws: the schedule splits into fewer than five fields,
      so one field is `undefined` and calling `split` on it is a TypeError. */
  datatype MatchError = MissingField(index: nat)

  const Days: seq<string> := ["sun", "mon", "tue", "wed", "thu", "fri", "sat"]
  const Months: seq<string> :=
    ["jan", "feb", "mar", "apr", "may", "jun", "jul", "aug", "sep", "oct", "nov", "dec"]

  /** `months[v - 1]`: defined for 1..12 only. */
  function MonthName(v: int): (name: Option<string>)
    ensures name.Some? <==> 1 <= v <= 12
    ensures name.Some? ==> |name.value| == 3
  {
    if 1 <= v <= 12 then Some(Months[v - 1]) else None
  }

  /** `days[v]`: defined for 0..6 only. */
  function DayName(v: int): (name: Option<string>)
    ensures name.Some? <==> 0 <= v < 7
    ensures name.Some? ==> |name.value| == 3
  {
    if 0 <= v < 7 then Some(Days[v]) else None
  }

  // ---------------------------------------------------------------------------
  // The two regular expressions of an item, as leftmost unanchored searches
  // ---------------------------------------------------------------------------

  /** The two patterns an item is searched for: `(\d+)-(\d+)` and
      `[\d-*]+\/(\d+)`. Both are found at their separator character. */
  datatype Pattern = RangePattern | StepPattern

  predicate IsStepBaseChar(c: char) { IsDigit(c) || c == '-' || c == '*' }

  /** The separator at `j` has a match of `p` around it. Because the greedy
      runs before and after the separator cannot contain it, the leftmost match
      of `p` is the one around its leftmost such separator, and its groups are
      the maximal digit runs next to it. */
  predicate SeparatorAt(p: Pattern, s: string, j: int) {
    && 0 < j && j + 1 < |s| && IsDigit(s[j + 1])
    && match p
       case RangePattern => s[j] == '-' && IsDigit(s[j - 1])
       case StepPattern => s[j] == '/' && IsStepBaseChar(s[j - 1])
  }

  /** The leftmost separator position at or after `from` at which `p` matches. */
  function FindSeparator(p: Pattern, s: string, from: nat): (r: Option<nat>)
    ensures r.Some? ==> from <= r.value < |s| && SeparatorAt(p, s, r.value)
    ensures r.Some? ==> forall k :: from <= k < r.value ==> !SeparatorAt(p, s, k)
    ensures r.None? ==> forall k :: from <= k < |s| ==> !SeparatorAt(p, s, k)
    decreases |s| - from
  {
    if from >= |s| then None
    else if SeparatorAt(p, s, from) then Some(from)
    else FindSeparator(p, s, from + 1)
  }

  /** Start of the maximal digit run that ends at `j`. */
  function DigitRunStart(s: string, j: nat): (k: nat)
    requires j <= |s|
    ensures k <= j && AllDigits(s[k..j])
    ensures k == 0 || !IsDigit(s[k - 1])
  {
    if j > 0 && IsDigit(s[j - 1]) then
      var k := DigitRunStart(s, j - 1);
      assert s[k..j] == s[k..j - 1] + [s[j - 1]];
      k
    else j
  }

  /** End of the maximal digit run that starts at `i`. */
  function DigitRunEnd(s: string, i: nat): (e: nat)
    requires i <= |s|
    ensures i <= e <= |s| && AllDigits(s[i..e])
    ensures e == |s| || !IsDigit(s[e])
    decreases |s| - i
  {
    if i < |s| && IsDigit(s[i]) then DigitRunEnd(s, i + 1) else i
  }

  /** `item.match(/(\d+)-(\d+)/)`: the two bounds, read by `parseInt`. */
  function RangeMatch(item: string): (r: Option<(nat, nat)>)
    ensures r.Some? <==> exists j :: 0 <= j < |item| && SeparatorAt(RangePattern, item, j)
  {
    match FindSeparator(RangePattern, item, 0)
    case None => None
    case Some(j) =>
      Some((DigitsValue(item[DigitRunStart(item, j)..j]),
            DigitsValue(item[j + 1..DigitRunEnd(item, j + 1)])))
  }

  /** `item.match(/[\d-*]+\/(\d+)/)`: the step, read by `parseInt`. */
  function StepMatch(item: string): (r: Option<nat>)
    ensures r.Some? <==> exists j :: 0 <= j < |item| && SeparatorAt(StepPattern, item, j)
  {
    match FindSeparator(StepPattern, item, 0)
    case None => None
    case Some(j) => Some(DigitsValue(item[j + 1..DigitRunEnd(item, j + 1)]))
  }

  /** JavaScript's `%`, whose remainder takes the sign of the dividend. */
  function JsRem(a: int, n: nat): (r: int)
    requires n > 0
    ensures a >= 0 ==> r == a % n
    ensures a < 0 ==> -(n as int) < r <= 0
  {
    if a >= 0 then a % n else -((-a) % n)
  }

  /** JavaScript's remainder differs from the dividend by a multiple of the
      divisor; with the bounds above this fixes its value. */
  lemma JsRemCongruent(a: int, n: nat)
    requires n > 0
    ensures (a - JsRem(a, n)) % n == 0
  {
    if a >= 0 {
      assert a - a % n == (a / n) * n;
      MultipleRem(a / n, n);
    } else {
      var q := (-a) / n;
      assert a - JsRem(a, n) == (-q) * n;
      MultipleRem(-q, n);
    }
  }

  /** A positive multiple of `n` is at least `n`. */
  lemma MulAtLeast(k: int, n: nat)
    requires n > 0 && k >= 1
    ensures k * n >= n
  {
    assert k * n == (k - 1) * n + n;
    assert (k - 1) * n >= 0;
  }

  /** A multiple of `n` leaves no remainder. */
  lemma MultipleRem(q: int, n: nat)
    requires n > 0
    ensures (q * n) % n == 0
  {
    var d := (q * n) / n;
    var r := (q * n) % n;
    assert q * n == d * n + r && 0 <= r < n;
    assert (q - d) * n == r;
    if q - d >= 1 {
      MulAtLeast(q - d, n);
    } else if q - d <= -1 {
      MulAtLeast(d - q, n);
    }
  }

  /** The step test of cron.ts:70 is divisibility: the remainder is 0
      exactly when `n` divides the offset, whatever its sign. */
  lemma JsRemZero(a: int, n: nat)
    requires n > 0
    ensures JsRem(a, n) == 0 <==> a % n == 0
  {
    JsRemCongruent(a, n);
    if a < 0 {
      if a % n == 0 {
        MultipleRem(-(a / n), n);
        assert -a == -(a / n) * n;
      }
    }
  }

  /** `(offset % step) === 0`; a step of 0 gives NaN, which is never 0. */
  predicate StepHits(offset: int, step: nat) {
    step != 0 && JsRem(offset, step) == 0
  }

  /** The step test holds exactly when the step is positive and divides the
      offset. */
  lemma StepHitsDivides(offset: int, step: nat)
    ensures StepHits(offset, step) <==> step > 0 && offset % step == 0
  {
    if step > 0 {
      JsRemZero(offset, step);
    }
  }

  // ---------------------------------------------------------------------------
  // Items, fields and the whole crontab
  // ---------------------------------------------------------------------------

  /** The callback of `opts.some(...)` in `cronPartMatches`: one trimmed list
      item against the value `v` of field `part`. */
  function ItemMatches(item: string, part: Part, v: int): bool {
    if item == "*" then true
    else if item == IntToString(v) then true
    else if part == Month && MonthName(v) == Some(ToLowerAscii(item)) then true
    else if part == DayOfWeek && DayName(v) == Some(ToLowerAscii(item)) then true
    else PatternMatches(item, v)
  }

  /** The range and step part of the callback, reached when `item` is neither
      `*`, the decimal form of `v`, nor the name of `v`. A step without a range
      counts from 0, whatever precedes the `/`. */
  function PatternMatches(item: string, v: int): bool {
    match RangeMatch(item)
    case Some((lo, hi)) =>
      lo <= v <= hi && (StepMatch(item).None? || StepHits(v - lo, StepMatch(item).value))
    case None =>
      StepMatch(item).Some? && StepHits(v, StepMatch(item).value)
  }

  /** `cronPart.split(",").map((p) => p.trim())`. */
  function Items(field: string): (items: seq<string>)
    ensures |items| == |Split(field, ',')|
    ensures forall i :: 0 <= i < |items| ==> items[i] == Trim(Split(field, ',')[i])
  {
    var parts := Split(field, ',');
    seq(|parts|, i requires 0 <= i < |parts| => Trim(parts[i]))
  }

  /** `opts.some(...)`, evaluated left to right. */
  function AnyItemMatches(items: seq<string>, part: Part, v: int): (b: bool)
    ensures b <==> exists i :: 0 <= i < |items| && ItemMatches(items[i], part, v)
  {
    if |items| == 0 then false
    else ItemMatches(items[0], part, v) || AnyItemMatches(items[1..], part, v)
  }

  /** `cronPartMatches(now, field, part)` for the value `v` of `part` in `now`:
      some comma-separated, trimmed item of the field matches. */
  function FieldMatches(field: string, part: Part, v: int): bool {
    AnyItemMatches(Items(field), part, v)
  }

  /** A field matches exactly when one of its comma-separated, trimmed items
      matches. */
  lemma FieldMatchesSomeItem(field: string, part: Part, v: int)
    ensures FieldMatches(field, part, v) ==>
      exists i :: 0 <= i < |Split(field, ',')| && ItemMatches(Trim(Split(field, ',')[i]), part, v)
    ensures (exists i :: 0 <= i < |Split(field, ',')| && ItemMatches(Trim(Split(field, ',')[i]), part, v)) ==>
      FieldMatches(field, part, v)
  {
    var parts := Split(field, ',');
    var items := Items(field);
    if FieldMatches(field, part, v) {
      var i :| 0 <= i < |items| && ItemMatches(items[i], part, v);
      assert items[i] == Trim(parts[i]);
    }
    if exists i :: 0 <= i < |parts| && ItemMatches(Trim(parts[i]), part, v) {
      var i :| 0 <= i < |parts| && ItemMatches(Trim(parts[i]), part, v);
      assert items[i] == Trim(parts[i]);
    }
  }

  /** `timeForCron(now, schedule)`: minute, hour and month must match, and at
      least one of the two day fields. All five fields are evaluated first, so
      a schedule with fewer than five space-separated fields throws. */
  function TimeForCron(now: Now, schedule: string): (r: Result<bool, MatchError>)
    ensures r.Failure? <==> |Split(schedule, ' ')| < 5
    ensures r.Failure? ==> r.error == MissingField(|Split(schedule, ' ')|)
  {
    var crontab := Split(schedule, ' ');
    if |crontab| < 5 then Failure(MissingField(|crontab|))
    else
      var minute := FieldMatches(crontab[0], Minute, now.minute);
      var hour := FieldMatches(crontab[1], Hour, now.hour);
      var dayOfMonth := FieldMatches(crontab[2], DayOfMonth, now.dayOfMonth);
      var month := FieldMatches(crontab[3], Month, now.month);
      var dayOfWeek := FieldMatches(crontab[4], DayOfWeek, now.dayOfWeek);
      Success(minute && hour && month && (dayOfMonth || dayOfWeek))
  }

  // ---------------------------------------------------------------------------
  // Properties of items
  // ---------------------------------------------------------------------------

  lemma NamesAreLetters()
    ensures forall i :: 0 <= i < |Months| ==> |Months[i]| == 3 && forall k :: 0 <= k < 3 ==> IsAsciiLetter(Months[i][k])
    ensures forall i :: 0 <= i < |Days| ==> |Days[i]| == 3 && forall k :: 0 <= k < 3 ==> IsAsciiLetter(Days[i][k])
  {
  }

  /** An item with a character that is not a letter is no month or day name,
      whatever the field. */
  lemma NotAName(item: string, v: int, j: nat)
    requires j < |item| && !IsAsciiLetter(item[j])
    ensures MonthName(v) != Some(ToLowerAscii(item))
    ensures DayName(v) != Some(ToLowerAscii(item))
  {
    NamesAreLetters();
    assert !IsAsciiLetter(ToLowerAscii(item)[j]);
  }

  /** The decimal form of an integer holds only digits and a leading minus. */
  lemma DecimalChars(v: int, j: nat)
    requires j < |IntToString(v)|
    ensures IsDigit(IntToString(v)[j]) || (j == 0 && IntToString(v)[j] == '-')
  {
    if v < 0 && j > 0 {
      assert IntToString(v)[j] == IntToString(v)[1..][j - 1];
    }
  }

  /** When an item other than `*` holds a character that is neither a digit
      nor a letter (nor a leading minus), only its range and step patterns can
      make it match. */
  lemma OnlyPatternsApply(item: string, part: Part, v: int, j: nat)
    requires item != "*"
    requires j < |item| && !IsDigit(item[j]) && !IsAsciiLetter(item[j])
    requires j > 0 || item[j] != '-'
    ensures ItemMatches(item, part, v) == PatternMatches(item, v)
  {
    NotAName(item, v, j);
    if j < |IntToString(v)| {
      DecimalChars(v, j);
    }
  }

  /** Without a `/` there is no step. */
  lemma NoSlashNoStep(item: string)
    requires '/' !in item
    ensures StepMatch(item).None?
  {
    assert FindSeparator(StepPattern, item, 0).None?;
  }

  /** A digit-only item matches exactly when it is the decimal form of the
      value: `5` matches 5, while `05` matches nothing. */
  lemma DigitItemMatches(item: string, part: Part, v: int)
    requires |item| >= 1 && AllDigits(item)
    ensures ItemMatches(item, part, v) <==> item == IntToString(v)
  {
    NotAName(item, v, 0);
    assert FindSeparator(RangePattern, item, 0).None?;
    assert FindSeparator(StepPattern, item, 0).None?;
  }

  /** No item with a leading zero and more than one digit ever matches. */
  lemma LeadingZeroNeverMatches(item: string, part: Part, v: int)
    requires |item| >= 2 && AllDigits(item) && item[0] == '0'
    ensures !ItemMatches(item, part, v)
  {
    DigitItemMatches(item, part, v);
  }

  /** A three-letter item is a name: case-insensitively, a month name matches
      its 1-based month in the month field, a day name matches its weekday
      (`sun` = 0) in the day-of-week field, and nothing matches elsewhere. */
  lemma NameItemMatches(item: string, part: Part, v: int)
    requires |item| == 3 && forall k :: 0 <= k < 3 ==> IsAsciiLetter(item[k])
    ensures ItemMatches(item, part, v) <==>
      || (part == Month && 1 <= v <= 12 && Months[v - 1] == ToLowerAscii(item))
      || (part == DayOfWeek && 0 <= v < 7 && Days[v] == ToLowerAscii(item))
  {
    assert FindSeparator(RangePattern, item, 0).None?;
    assert FindSeparator(StepPattern, item, 0).None?;
  }

  /** Month names are 1-based: `jan` (in any case) is month 1 and only that. */
  lemma JanuaryIsMonthOne(item: string, v: int)
    requires ToLowerAscii(item) == "jan"
    ensures ItemMatches(item, Month, v) <==> v == 1
  {
    assert |item| == 3;
    forall k | 0 <= k < 3 ensures IsAsciiLetter(item[k]) {
      assert LowerChar(item[k]) == "jan"[k];
    }
    NameItemMatches(item, Month, v);
  }

  /** Day names start at Sunday = 0. */
  lemma SundayIsDayZero(item: string, v: int)
    requires ToLowerAscii(item) == "sun"
    ensures ItemMatches(item, DayOfWeek, v) <==> v == 0
    ensures !ItemMatches(item, Month, v) && !ItemMatches(item, Minute, v)
  {
    assert |item| == 3;
    forall k | 0 <= k < 3 ensures IsAsciiLetter(item[k]) {
      assert LowerChar(item[k]) == "sun"[k];
    }
    NameItemMatches(item, DayOfWeek, v);
    NameItemMatches(item, Month, v);
    NameItemMatches(item, Minute, v);
  }

  lemma {:induction false} DigitRunStartIs(s: string, j: nat, k: nat)
    requires k <= j <= |s|
    requires forall m :: k <= m < j ==> IsDigit(s[m])
    requires k == 0 || !IsDigit(s[k - 1])
    ensures DigitRunStart(s, j) == k
    decreases j
  {
    if j > k {
      DigitRunStartIs(s, j - 1, k);
    }
  }

  lemma {:induction false} DigitRunEndIs(s: string, i: nat, e: nat)
    requires i <= e <= |s|
    requires forall m :: i <= m < e ==> IsDigit(s[m])
    requires e == |s| || !IsDigit(s[e])
    ensures DigitRunEnd(s, i) == e
    decreases e - i
  {
    if i < e {
      DigitRunEndIs(s, i + 1, e);
    }
  }

  /** The first separator is the one the search finds. */
  lemma {:induction false} FindSeparatorIs(p: Pattern, s: string, from: nat, j: nat)
    requires from <= j && SeparatorAt(p, s, j)
    requires forall k :: from <= k < j ==> !SeparatorAt(p, s, k)
    ensures FindSeparator(p, s, from) == Some(j)
    decreases j - from
  {
    if from < j {
      FindSeparatorIs(p, s, from + 1, j);
    }
  }

  /** The groups of the range pattern in `A-B`+`rest`, for digit strings `A`
      and `B`, are `A` and `B` when `rest` does not start with a digit. */
  lemma RangeMatchDigits(A: string, B: string, rest: string)
    requires |A| >= 1 && AllDigits(A) && |B| >= 1 && AllDigits(B)
    requires |rest| == 0 || !IsDigit(rest[0])
    ensures RangeMatch(A + "-" + B + rest) == Some((DigitsValue(A), DigitsValue(B)))
  {
    var item := A + "-" + B + rest;
    var j := |A|;
    RangeSeparatorOf(A, B, rest);
    assert item[..j] == A;
    assert item[j + 1..j + 1 + |B|] == B;
    assert |rest| > 0 ==> item[j + 1 + |B|] == rest[0];
    RangeMatchAt(item, j, j + 1 + |B|);
  }

  /** In `A-B`+`rest` the range search stops at the dash after `A`. */
  lemma RangeSeparatorOf(A: string, B: string, rest: string)
    requires |A| >= 1 && AllDigits(A) && |B| >= 1 && IsDigit(B[0])
    ensures FindSeparator(RangePattern, A + "-" + B + rest, 0) == Some(|A|)
  {
    var item := A + "-" + B + rest;
    assert forall k :: 0 <= k < |A| ==> item[k] == A[k];
    assert item[|A|] == '-' && item[|A| + 1] == B[0];
    FindSeparatorIs(RangePattern, item, 0, |A|);
  }

  /** Once the range separator is found at `j`, preceded only by digits and
      followed by the digit run up to `e`, the groups are the values of the
      two runs. */
  lemma RangeMatchAt(item: string, j: nat, e: nat)
    requires FindSeparator(RangePattern, item, 0) == Some(j)
    requires j + 1 <= e <= |item|
    requires AllDigits(item[..j]) && AllDigits(item[j + 1..e])
    requires e == |item| || !IsDigit(item[e])
    ensures RangeMatch(item) == Some((DigitsValue(item[..j]), DigitsValue(item[j + 1..e])))
  {
    forall m | 0 <= m < j
      ensures IsDigit(item[m])
    {
      assert item[m] == item[..j][m];
    }
    forall m | j + 1 <= m < e
      ensures IsDigit(item[m])
    {
      assert item[m] == item[j + 1..e][m - j - 1];
    }
    DigitRunStartIs(item, j, 0);
    DigitRunEndIs(item, j + 1, e);
    assert item[0..j] == item[..j];
  }

  /** The groups of the range pattern in `a-b`+`rest` are `a` and `b` when
      `rest` does not start with a digit. */
  lemma RangeMatchOf(a: nat, b: nat, rest: string)
    requires |rest| == 0 || !IsDigit(rest[0])
    ensures RangeMatch(NatToString(a) + "-" + NatToString(b) + rest) == Some((a, b))
  {
    RangeMatchDigits(NatToString(a), NatToString(b), rest);
  }

  /** In `base/N` the step search stops at the slash after `base`. */
  lemma StepSeparatorOf(base: string, N: string)
    requires |base| >= 1 && forall k :: 0 <= k < |base| ==> IsStepBaseChar(base[k])
    requires |N| >= 1 && IsDigit(N[0])
    ensures FindSeparator(StepPattern, base + "/" + N, 0) == Some(|base|)
  {
    var item := base + "/" + N;
    assert forall k :: 0 <= k < |base| ==> item[k] == base[k];
    assert item[|base|] == '/' && item[|base| + 1] == N[0];
    FindSeparatorIs(StepPattern, item, 0, |base|);
  }

  /** The step pattern finds the digit string `N` in `base/N` when `base`
      is made of digits, `-` and `*` only. */
  lemma StepMatchDigits(base: string, N: string)
    requires |base| >= 1 && forall k :: 0 <= k < |base| ==> IsStepBaseChar(base[k])
    requires |N| >= 1 && AllDigits(N)
    ensures StepMatch(base + "/" + N) == Some(DigitsValue(N))
  {
    var item := base + "/" + N;
    StepSeparatorOf(base, N);
    assert item[|base| + 1..] == N;
    StepMatchAt(item, |base|);
  }

  /** Once the step separator is found at `j` and only digits follow it,
      the captured step is the value of everything after it. */
  lemma StepMatchAt(item: string, j: nat)
    requires FindSeparator(StepPattern, item, 0) == Some(j)
    requires AllDigits(item[j + 1..])
    ensures StepMatch(item) == Some(DigitsValue(item[j + 1..]))
  {
    forall m | j + 1 <= m < |item|
      ensures IsDigit(item[m])
    {
      assert item[m] == item[j + 1..][m - j - 1];
    }
    DigitRunEndIs(item, j + 1, |item|);
    assert item[j + 1..|item|] == item[j + 1..];
  }

  /** The step pattern finds `n` in `base/n`. */
  lemma StepMatchOf(base: string, n: nat)
    requires |base| >= 1 && forall k :: 0 <= k < |base| ==> IsStepBaseChar(base[k])
    ensures StepMatch(base + "/" + NatToString(n)) == Some(n)
  {
    StepMatchDigits(base, NatToString(n));
  }

  /** `a-b` matches exactly the values from `a` to `b` inclusive. */
  lemma RangeItemMatches(a: nat, b: nat, part: Part, v: int)
    ensures ItemMatches(NatToString(a) + "-" + NatToString(b), part, v) <==> a <= v <= b
  {
    var A, B := NatToString(a), NatToString(b);
    var item := A + "-" + B;
    RangeMatchOf(a, b, "");
    assert item + "" == item;
    assert item[|A|] == '-';
    OnlyPatternsApply(item, part, v, |A|);
    NoSlashInRange(A, B);
    NoSlashNoStep(item);
  }

  lemma NoSlashInRange(A: string, B: string)
    requires AllDigits(A) && AllDigits(B)
    ensures '/' !in A + "-" + B
  {
    var item := A + "-" + B;
    forall k | 0 <= k < |item| ensures item[k] != '/' {
      if k < |A| { assert item[k] == A[k]; }
      else if k > |A| { assert item[k] == B[k - |A| - 1]; }
    }
  }

  /** The range and step patterns of `a-b/n`. */
  lemma RangeStepPatterns(a: nat, b: nat, n: nat)
    ensures var item := NatToString(a) + "-" + NatToString(b) + "/" + NatToString(n);
      RangeMatch(item) == Some((a, b)) && StepMatch(item) == Some(n)
  {
    var A, B, N := NatToString(a), NatToString(b), NatToString(n);
    var base := A + "-" + B;
    assert base + "/" + N == A + "-" + B + ("/" + N);
    RangeMatchOf(a, b, "/" + N);
    RangeIsStepBase(A, B);
    StepMatchOf(base, n);
  }

  /** A range is made of characters the step pattern accepts before `/`. */
  lemma RangeIsStepBase(A: string, B: string)
    requires AllDigits(A) && AllDigits(B)
    ensures forall k :: 0 <= k < |A + "-" + B| ==> IsStepBaseChar((A + "-" + B)[k])
  {
    var base := A + "-" + B;
    forall k | 0 <= k < |base| ensures IsStepBaseChar(base[k]) {
      if k < |A| { assert base[k] == A[k]; }
      else if k > |A| { assert base[k] == B[k - |A| - 1]; }
    }
  }

  /** `a-b/n` matches the values from `a` to `b` that are a multiple of `n`
      away from `a`; a step of 0 matches nothing. */
  lemma RangeStepItemMatches(a: nat, b: nat, n: nat, part: Part, v: int)
    ensures ItemMatches(NatToString(a) + "-" + NatToString(b) + "/" + NatToString(n), part, v)
            <==> a <= v <= b && n != 0 && (v - a) % n == 0
  {
    var item := NatToString(a) + "-" + NatToString(b) + "/" + NatToString(n);
    var j := |NatToString(a) + "-" + NatToString(b)|;
    assert item[j] == '/';
    OnlyPatternsApply(item, part, v, j);
    RangeStepPatterns(a, b, n);
    assert PatternMatches(item, v) == (a <= v <= b && StepHits(v - a, n));
  }

  // A step without a range counts from 0 whatever its base is: the items
  // star-slash-n and 5-slash-n alike match the non-negative multiples of n.
  lemma StepItemMatches(base: string, n: nat, part: Part, v: int)
    requires |base| >= 1 && forall k :: 0 <= k < |base| ==> IsDigit(base[k]) || base[k] == '*'
    requires v >= 0
    ensures ItemMatches(base + "/" + NatToString(n), part, v) <==> n != 0 && v % n == 0
  {
    var item := base + "/" + NatToString(n);
    StepMatchOf(base, n);
    assert item[|base|] == '/';
    OnlyPatternsApply(item, part, v, |base|);
    assert FindSeparator(RangePattern, item, 0).None? by {
      forall k | 0 <= k < |item| ensures !SeparatorAt(RangePattern, item, k) {
        if k < |base| { assert item[k] == base[k]; }
        else if k > |base| { assert item[k] == NatToString(n)[k - |base| - 1]; }
      }
    }
  }

  // ---------------------------------------------------------------------------
  // Properties of fields and schedules
  // ---------------------------------------------------------------------------

  /** A field that is one item, with no comma and no whitespace, matches
      exactly when that item does. */
  lemma SingleItemField(item: string, part: Part, v: int)
    requires ',' !in item && forall k :: 0 <= k < |item| ==> !IsJsWhitespace(item[k])
    ensures FieldMatches(item, part, v) == ItemMatches(item, part, v)
  {
    SingleItem(item);
    assert [item][1..] == [];
  }

  /** A field with no comma and no whitespace is its only item. */
  lemma SingleItem(item: string)
    requires ',' !in item && forall k :: 0 <= k < |item| ==> !IsJsWhitespace(item[k])
    ensures Items(item) == [item]
  {
    SplitNoSeparator(item, ',');
    TrimNoWhitespace(item);
  }

  /** The field `*` matches every value. */
  lemma StarField(part: Part, v: int)
    ensures FieldMatches("*", part, v)
  {
    var star := "*";
    assert |star| == 1 && star[0] == '*';
    assert !IsJsWhitespace(star[0]);
    SingleItemField(star, part, v);
  }

  /** Five fields with no space in any of them. */
  predicate FiveFields(fields: seq<string>) {
    |fields| == 5 && forall i :: 0 <= i < 5 ==> ' ' !in fields[i]
  }

  /** The schedule written from five fields is judged field by field: minute,
      hour and month must match, and day-of-month or day-of-week. */
  lemma ScheduleOfFields(now: Now, fields: seq<string>)
    requires FiveFields(fields)
    ensures TimeForCron(now, Join(fields, ' ')) == Success(
      && FieldMatches(fields[0], Minute, now.minute)
      && FieldMatches(fields[1], Hour, now.hour)
      && FieldMatches(fields[3], Month, now.month)
      && (FieldMatches(fields[2], DayOfMonth, now.dayOfMonth) || FieldMatches(fields[4], DayOfWeek, now.dayOfWeek)))
  {
    SplitJoin(fields, ' ');
  }

  /** Five `*` fields match every instant. */
  lemma StarFieldsMatchEverything(now: Now, fields: seq<string>)
    requires FiveFields(fields) && forall i :: 0 <= i < 5 ==> fields[i] == "*"
    ensures TimeForCron(now, Join(fields, ' ')) == Success(true)
  {
    ScheduleOfFields(now, fields);
    StarField(Minute, now.minute);
    StarField(Hour, now.hour);
    StarField(Month, now.month);
    StarField(DayOfMonth, now.dayOfMonth);
  }

  /** `* * * * *` matches every instant. */
  lemma AllStarsMatchEverything(now: Now)
    ensures TimeForCron(now, "* * * * *") == Success(true)
  {
    var fields := ["*", "*", "*", "*", "*"];
    assert Join(fields, ' ') == "* * * * *";
    assert FiveFields(fields);
    StarFieldsMatchEverything(now, fields);
  }

  /** The day fields are ORed even when day-of-month is `*`: then the
      day-of-week field has no effect at all. */
  lemma DayOfWeekIgnoredUnderStar(now: Now, fields: seq<string>, other: string)
    requires FiveFields(fields) && fields[2] == "*" && ' ' !in other
    ensures TimeForCron(now, Join(fields, ' ')) == TimeForCron(now, Join(fields[4 := other], ' '))
  {
    ScheduleOfFields(now, fields);
    ScheduleOfFields(now, fields[4 := other]);
    StarField(DayOfMonth, now.dayOfMonth);
  }

  /** A one-number field `n` matches exactly the value `n`. */
  lemma NumberField(n: nat, part: Part, v: int)
    ensures FieldMatches(NatToString(n), part, v) <==> v == n
  {
    var item := NatToString(n);
    assert forall k :: 0 <= k < |item| ==> IsDigit(item[k]);
    SingleItemField(item, part, v);
    DigitItemMatches(item, part, v);
    IntToStringEquals(v, n);
  }

  /** Minute `m`, hour `h`, day-of-month `d`, month `*` and day-of-week `w`
      fire at `h:m` on day `d` of every month and on every weekday `w`. */
  lemma DayOrWeekday(now: Now, fields: seq<string>, m: nat, h: nat, d: nat, w: nat)
    requires FiveFields(fields)
    requires fields[0] == NatToString(m) && fields[1] == NatToString(h) && fields[2] == NatToString(d)
    requires fields[3] == "*" && fields[4] == NatToString(w)
    ensures TimeForCron(now, Join(fields, ' ')) ==
      Success(now.minute == m && now.hour == h && (now.dayOfMonth == d || now.dayOfWeek == w))
  {
    ScheduleOfFields(now, fields);
    NumberField(m, Minute, now.minute);
    NumberField(h, Hour, now.hour);
    NumberField(d, DayOfMonth, now.dayOfMonth);
    NumberField(w, DayOfWeek, now.dayOfWeek);
    StarField(Month, now.month);
  }

  /** `0 0 15 * 1` fires at midnight on the 15th of every month and at
      midnight on every Monday, and at no other time. */
  lemma FifteenthOrMonday(now: Now)
    ensures TimeForCron(now, "0 0 15 * 1") ==
      Success(now.minute == 0 && now.hour == 0 && (now.dayOfMonth == 15 || now.dayOfWeek == 1))
  {
    var fields := ["0", "0", "15", "*", "1"];
    FifteenthOrMondayFields();
    DayOrWeekday(now, fields, 0, 0, 15, 1);
  }

  lemma FifteenthOrMondayFields()
    ensures var fields := ["0", "0", "15", "*", "1"];
      && Join(fields, ' ') == "0 0 15 * 1" && FiveFields(fields)
      && NatToString(0) == "0" && NatToString(1) == "1" && NatToString(15) == "15"
  {
    var fields := ["0", "0", "15", "*", "1"];
    assert Join(fields, ' ') == "0 0 15 * 1";
    assert NatToString(15) == NatToString(1) + [DigitChar(5)];
  }

  lemma QuarterHours(minute: int)
    requires 0 <= minute < 60
    ensures minute % 15 == 0 <==> minute in {0, 15, 30, 45}
  {
  }

  /** A quarter-hour step matches minutes 0, 15, 30 and 45 and no others,
      whether its base is `*` or a number such as 5. */
  lemma QuarterHourSteps(minute: int)
    requires 0 <= minute < 60
    ensures ItemMatches("*/15", Minute, minute) <==> minute in {0, 15, 30, 45}
    ensures ItemMatches("5/15", Minute, minute) <==> minute in {0, 15, 30, 45}
  {
    assert NatToString(15) == "15";
    assert "*/15" == "*" + "/" + NatToString(15);
    assert "5/15" == "5" + "/" + NatToString(15);
    StepItemMatches("*", 15, Minute, minute);
    StepItemMatches("5", 15, Minute, minute);
    QuarterHours(minute);
  }

  lemma EveryThird(v: int)
    ensures (1 <= v <= 10 && (v - 1) % 3 == 0) <==> v in {1, 4, 7, 10}
  {
  }

  /** `1-10/3` matches exactly 1, 4, 7 and 10. */
  lemma EveryThirdFromOne(part: Part, v: int)
    ensures ItemMatches("1-10/3", part, v) <==> v in {1, 4, 7, 10}
  {
    assert NatToString(10) == "10" && NatToString(1) == "1" && NatToString(3) == "3";
    assert "1-10/3" == NatToString(1) + "-" + NatToString(10) + "/" + NatToString(3);
    RangeStepItemMatches(1, 10, 3, part, v);
    EveryThird(v);
  }

  /** A step of 0 never matches after a range. */
  lemma RangeStepZeroNeverMatches(a: nat, b: nat, part: Part, v: int)
    ensures !ItemMatches(NatToString(a) + "-" + NatToString(b) + "/0", part, v)
  {
    ZeroText();
    var base := NatToString(a) + "-" + NatToString(b);
    assert base + "/0" == base + "/" + NatToString(0);
    RangeStepItemMatches(a, b, 0, part, v);
  }

  /** A step of 0 never matches after `*`, whatever the value. */
  lemma StarStepZeroNeverMatches(part: Part, v: int)
    ensures !ItemMatches("*/0", part, v)
  {
    ZeroText();
    var item := "*/0";
    assert item == "*" + "/" + NatToString(0);
    StepMatchOf("*", 0);
    assert item[1] == '/';
    OnlyPatternsApply(item, part, v, 1);
    assert !SeparatorAt(RangePattern, item, 0) && !SeparatorAt(RangePattern, item, 1) && !SeparatorAt(RangePattern, item, 2);
  }

  lemma ZeroText()
    ensures NatToString(0) == "0"
  {
    assert NatToString(0) == [DigitChar(0)];
  }
}

=== FILE: cron_shape.dfy ===
/** The coarse shape check `Cron.add` applies before registering a job: an
    unanchored search for
    `((?:[\d*-/]+|[A-Za-z]{3}) ){4}(?:[\d*-/]+|[A-Za-z]{3})`,
    that is, five tokens separated by single spaces somewhere in the
    schedule. A token is a run of characters of the class `[\d*-/]` or
    exactly three ASCII letters. */
module CronShape {
  import opened Wrappers
  import opened Strings

  /** The class `[\d*-/]`: digits and the range from `*` to `/`, which is
      `* + , - . /`. */
  predicate IsTokenChar(c: char) { IsDigit(c) || ('*' <= c <= '/') }

  /** End of the maximal run of token characters that starts at `i`. */
  function TokenRunEnd(s: string, i: nat): (e: nat)
    requires i <= |s|
    ensures i <= e <= |s|
    ensures forall k :: i <= k < e ==> IsTokenChar(s[k])
    ensures e == |s| || !IsTokenChar(s[e])
    decreases |s| - i
  {
    if i < |s| && IsTokenChar(s[i]) then TokenRunEnd(s, i + 1) else i
  }

  predicate ThreeLetters(s: string) {
    |s| >= 3 && IsAsciiLetter(s[0]) && IsAsciiLetter(s[1]) && IsAsciiLetter(s[2])
  }

  /** Where the group `(?:token) ` ends when matched at the start of `s`. The
      match is deterministic: a token run is greedy and the space cannot be
      part of it, and a run of token characters never starts with a letter. */
  function TokenThenSpace(s: string): (r: Option<nat>)
    ensures r.Some? ==> 0 < r.value <= |s| && s[r.value - 1] == ' '
  {
    if |s| > 0 && IsTokenChar(s[0]) then
      var e := TokenRunEnd(s, 0);
      if e < |s| && s[e] == ' ' then Some(e + 1) else None
    else if ThreeLetters(s) && |s| > 3 && s[3] == ' ' then Some(4)
    else None
  }

  /** The final `(?:token)`: it only needs to start at the front of `s`. */
  predicate TokenStarts(s: string) {
    (|s| > 0 && IsTokenChar(s[0])) || ThreeLetters(s)
  }

  /** `k` groups `(?:token) ` followed by one token match at the front of `s`. */
  predicate Chain(s: string, k: nat)
    decreases k
  {
    if k == 0 then TokenStarts(s)
    else
      match TokenThenSpace(s)
      case None => false
      case Some(j) => Chain(s[j..], k - 1)
  }

  /** `schedule.match(...)` is not null: the pattern matches at some position. */
  predicate ShapeOk(schedule: string) {
    exists i :: 0 <= i <= |schedule| && Chain(schedule[i..], 4)
  }

  /** A chain of `k` groups holds at least `k` spaces. */
  lemma {:induction false} ChainSpaces(s: string, k: nat)
    requires Chain(s, k)
    ensures Count(s, ' ') >= k
    decreases k
  {
    if k > 0 {
      var j := TokenThenSpace(s).value;
      ChainSpaces(s[j..], k - 1);
      assert s == s[..j - 1] + [' '] + s[j..];
      CountAppend(s[..j - 1] + [' '], s[j..], ' ');
      CountAppend(s[..j - 1], [' '], ' ');
    }
  }

  /** A schedule that passes the shape check splits into at least five
      space-separated fields, so `timeForCron` never reads a missing field. */
  lemma ShapeOkHasFiveFields(schedule: string)
    requires ShapeOk(schedule)
    ensures |Split(schedule, ' ')| >= 5
  {
    var i :| 0 <= i <= |schedule| && Chain(schedule[i..], 4);
    ChainSpaces(schedule[i..], 4);
    CountSuffix(schedule, i, ' ');
  }

  lemma CountSuffix(s: string, i: nat, c: char)
    requires i <= |s|
    ensures Count(s, c) >= Count(s[i..], c)
  {
    assert s == s[..i] + s[i..];
    CountAppend(s[..i], s[i..], c);
  }

  /** Tokens joined by single spaces form a chain. */
  lemma {:induction false} JoinedTokensChain(fields: seq<string>)
    requires |fields| >= 1
    requires forall i :: 0 <= i < |fields| ==> |fields[i]| >= 1 && forall k :: 0 <= k < |fields[i]| ==> IsTokenChar(fields[i][k])
    ensures Chain(Join(fields, ' '), |fields| - 1)
    decreases |fields|
  {
    var s := Join(fields, ' ');
    if |fields| > 1 {
      var f := fields[0];
      var t := Join(fields[1..], ' ');
      assert s == f + [' '] + t;
      assert forall k :: 0 <= k < |f| ==> s[k] == f[k];
      assert s[|f|] == ' ';
      assert TokenRunEnd(s, 0) == |f| by {
        TokenRunEndIs(s, 0, |f|);
      }
      assert TokenThenSpace(s) == Some(|f| + 1);
      assert s[|f| + 1..] == t;
      JoinedTokensChain(fields[1..]);
    } else {
      assert s == fields[0];
      assert s[0] == fields[0][0];
    }
  }

  lemma {:induction false} TokenRunEndIs(s: string, i: nat, e: nat)
    requires i <= e <= |s|
    requires forall k :: i <= k < e ==> IsTokenChar(s[k])
    requires e == |s| || !IsTokenChar(s[e])
    ensures TokenRunEnd(s, i) == e
    decreases e - i
  {
    if i < e {
      TokenRunEndIs(s, i + 1, e);
    }
  }

  /** Any five non-empty fields made of digits and `* + , - . /` pass the
      check, including semantically meaningless ones such as minute 99. */
  lemma TokenFieldsPass(fields: seq<string>)
    requires |fields| == 5
    requires forall i :: 0 <= i < 5 ==> |fields[i]| >= 1 && forall k :: 0 <= k < |fields[i]| ==> IsTokenChar(fields[i][k])
    ensures ShapeOk(Join(fields, ' '))
  {
    var s := Join(fields, ' ');
    JoinedTokensChain(fields);
    assert s[0..] == s;
  }

  /** A schedule with fewer than four spaces is rejected. */
  lemma TooFewSpacesRejected(schedule: string)
    requires Count(schedule, ' ') < 4
    ensures !ShapeOk(schedule)
  {
    if ShapeOk(schedule) {
      ShapeOkHasFiveFields(schedule);
    }
  }
}

=== FILE: dates.dfy ===
/** Dates as index.ts handles them: `parseDate` with its null short-circuit,
    and the hours and minutes parts of a moment duration.

    Date-text parsing and time-zone conversion belong to the moment and
    moment-timezone libraries; the model takes them as the `parse` parameter
    of an `Env`, which maps a raw date text and a zone name to an instant in
    milliseconds, or to `None` when moment reports the date invalid or
    throws. The formatted ISO text `parseDate` returns is represented by that
    instant.

    An unknown station code gives the empty zone name. moment-timezone reads
    `tz("")` as its getter, so no moment comes back, the validity check
    throws and `parseDate` returns null: an `Env` true to the libraries maps
    every text to `None` under the zone "". The model leaves that to the
    `parse` parameter. */
module Dates {
  import opened Wrappers

  /** An instant, in milliseconds since the epoch. */
  type Instant = int

  /** The station metadata and the date parser index.ts reads from module
      scope. */
  datatype Env = Env(
    stationNames: map<string, string>,
    timeZones: map<string, string>,
    parse: (string, string) -> Option<Instant>)

  /** `stationMetaData.timeZones[code] ?? ""`. */
  function ZoneOf(code: string, env: Env): (zone: string)
    ensures code in env.timeZones ==> zone == env.timeZones[code]
    ensures code !in env.timeZones ==> zone == ""
  {
    if code in env.timeZones then env.timeZones[code] else ""
  }

  /** `parseDate(badDate, code)`: null when either argument is null, otherwise
      whatever the parser makes of the text in the station's zone. */
  function ParseDate(badDate: Option<string>, code: Option<string>, env: Env): (r: Option<Instant>)
    ensures badDate.None? || code.None? ==> r.None?
    ensures r.Some? ==> badDate.Some? && code.Some? && env.parse(badDate.value, ZoneOf(code.value, env)) == r
    ensures badDate.Some? && code.Some? ==> r == env.parse(badDate.value, ZoneOf(code.value, env))
  {
    if badDate.None? || code.None? then None
    else env.parse(badDate.value, ZoneOf(code.value, env))
  }

  const MsPerMinute: int := 60_000
  const MsPerHour: int := 3_600_000
  const MsPerDay: int := 86_400_000

  /** `moment.duration(ms).minutes()`: whole minutes truncated toward zero,
      reduced modulo an hour and carrying the sign of the duration. */
  function Minutes(ms: int): (m: int)
    ensures ms >= 0 ==> 0 <= m < 60
    ensures ms < 0 ==> -60 < m <= 0
  {
    if ms >= 0 then (ms / MsPerMinute) % 60 else -((-ms / MsPerMinute) % 60)
  }

  /** `moment.duration(ms).hours()`: whole hours truncated toward zero,
      reduced modulo a day and carrying the sign of the duration. */
  function Hours(ms: int): (h: int)
    ensures ms >= 0 ==> 0 <= h < 24
    ensures ms < 0 ==> -24 < h <= 0
  {
    if ms >= 0 then (ms / MsPerHour) % 24 else -((-ms / MsPerHour) % 24)
  }

  /** Within a day, a non-negative duration is its hours, its minutes and a
      remainder below one minute: the parts are those of the clock reading
      of the duration. */
  lemma PartsDecompose(ms: int)
    requires ms >= 0
    ensures ms % MsPerDay == Hours(ms) * MsPerHour + Minutes(ms) * MsPerMinute + ms % MsPerMinute
  {
    var q := ms / MsPerMinute;
    var r := ms % MsPerMinute;
    assert ms == q * MsPerMinute + r;
    var h := q / 60;
    assert h == ms / MsPerHour by {
      assert ms == h * MsPerHour + ((q % 60) * MsPerMinute + r);
      assert 0 <= (q % 60) * MsPerMinute + r < MsPerHour;
    }
    assert ms % MsPerDay == (h % 24) * MsPerHour + (q % 60) * MsPerMinute + r by {
      assert ms == (h / 24) * MsPerDay + ((h % 24) * MsPerHour + (q % 60) * MsPerMinute + r);
      assert 0 <= (h % 24) * MsPerHour + (q % 60) * MsPerMinute + r < MsPerDay;
    }
  }

  /** Whole days do not show in the parts. */
  lemma PartsIgnoreDays(ms: int, days: nat)
    requires ms >= 0
    ensures Minutes(ms + days * MsPerDay) == Minutes(ms)
    ensures Hours(ms + days * MsPerDay) == Hours(ms)
  {
    assert (ms + days * MsPerDay) / MsPerMinute == ms / MsPerMinute + days * 1440;
    assert (ms + days * MsPerDay) / MsPerHour == ms / MsPerHour + days * 24;
  }

  /** A non-negative duration under a day, written as hours, minutes and a
      sub-minute remainder, has exactly those parts. */
  lemma PartsOf(hours: nat, minutes: nat, rest: nat)
    requires hours < 24 && minutes < 60 && rest < MsPerMinute
    ensures Minutes(hours * MsPerHour + minutes * MsPerMinute + rest) == minutes
    ensures Hours(hours * MsPerHour + minutes * MsPerMinute + rest) == hours
  {
    var ms := hours * MsPerHour + minutes * MsPerMinute + rest;
    assert ms / MsPerMinute == hours * 60 + minutes;
    assert ms / MsPerHour == hours;
  }

  /** The parts of a negative duration are those of its magnitude, negated. */
  lemma PartsOfNegative(ms: int)
    requires ms > 0
    ensures Minutes(-ms) == -Minutes(ms)
    ensures Hours(-ms) == -Hours(ms)
  {
  }
}

=== FILE: feed.dfy ===
/** The per-train loop of `updateTrains` in index.ts: collecting the raw
    station records from the slots `Station1` … `Station40` of a train's
    properties, and grouping the cleaned trains by train number.

    `JSON.parse` is a parameter mapping a slot's text to a raw station, or
    to `None` when it throws. The other fields of a cleaned train are not
    modelled; a train is an opaque value of type `T` in the grouping. */
module Feed {
  import opened Wrappers
  import opened Strings
  import opened Stations

  /** The properties of one train feature, by name; a property holding
      `null` is `Some(None)`. */
  type Properties = map<string, Option<string>>

  const FirstSlot: nat := 1
  const LastSlot: nat := 40
  const DropCode: string := "CBN"

  /** The name of slot `i`: `Station${i}`. */
  function SlotKey(i: nat): (k: string)
    ensures |k| > 7 && k[..7] == "Station"
    ensures AllDigits(k[7..]) && DigitsValue(k[7..]) == i
  {
    "Station" + NatToString(i)
  }

  /** The raw station slot `i` contributes, if any: nothing when the slot is
      missing or null (`station == undefined` holds for both), when its
      text does not parse, or when the record is the `CBN` station. */
  function SlotStation(props: Properties, i: nat, parseJson: string -> Option<RawStation>): (r: Option<RawStation>)
    ensures r.Some? ==> r.value.code != DropCode
    ensures r.Some? <==>
      SlotKey(i) in props && props[SlotKey(i)].Some?
      && parseJson(props[SlotKey(i)].value).Some?
      && parseJson(props[SlotKey(i)].value).value.code != DropCode
  {
    var key := SlotKey(i);
    if key !in props || props[key].None? then None
    else
      match parseJson(props[key].value)
      case None => None
      case Some(raw) => if raw.code == DropCode then None else Some(raw)
  }

  /** The records collected from slots 1 to `n`, in slot order. */
  function CollectedUpTo(props: Properties, n: nat, parseJson: string -> Option<RawStation>): (rs: seq<RawStation>)
    ensures |rs| <= n
    ensures forall k :: 0 <= k < |rs| ==> rs[k].code != DropCode
  {
    if n == 0 then []
    else
      var before := CollectedUpTo(props, n - 1, parseJson);
      match SlotStation(props, n, parseJson)
      case None => before
      case Some(raw) => before + [raw]
  }

  /** The `for (let i = 1; i < 41; i++)` loop. */
  method CollectRawStations(props: Properties, parseJson: string -> Option<RawStation>) returns (raws: seq<RawStation>)
    ensures raws == CollectedUpTo(props, LastSlot, parseJson)
    ensures |raws| <= LastSlot
    ensures forall k :: 0 <= k < |raws| ==> raws[k].code != DropCode
  {
    raws := [];
    var i := FirstSlot;
    while i < LastSlot + 1
      invariant FirstSlot <= i <= LastSlot + 1
      invariant raws == CollectedUpTo(props, i - 1, parseJson)
    {
      var station := SlotStation(props, i, parseJson);
      if station.Some? {
        raws := raws + [station.value];
      }
      i := i + 1;
    }
  }

  /** Only the forty slots matter: properties that agree on them give the
      same records. */
  lemma {:induction false} CollectedOnlyReadsSlots(p: Properties, q: Properties, n: nat, parseJson: string -> Option<RawStation>)
    requires forall i :: 1 <= i <= n ==> (SlotKey(i) in p <==> SlotKey(i) in q)
    requires forall i :: 1 <= i <= n && SlotKey(i) in p ==> p[SlotKey(i)] == q[SlotKey(i)]
    ensures CollectedUpTo(p, n, parseJson) == CollectedUpTo(q, n, parseJson)
  {
    if n > 0 {
      CollectedOnlyReadsSlots(p, q, n - 1, parseJson);
      assert SlotStation(p, n, parseJson) == SlotStation(q, n, parseJson);
    }
  }

  /** Every record of a usable slot is collected. */
  lemma {:induction false} SlotStationsAreCollected(props: Properties, n: nat, parseJson: string -> Option<RawStation>)
    ensures forall i :: 1 <= i <= n && SlotStation(props, i, parseJson).Some? ==>
      SlotStation(props, i, parseJson).value in CollectedUpTo(props, n, parseJson)
  {
    if n > 0 {
      SlotStationsAreCollected(props, n - 1, parseJson);
      var before := CollectedUpTo(props, n - 1, parseJson);
      assert before <= CollectedUpTo(props, n, parseJson);
    }
  }

  /** Every collected record comes from some slot. */
  lemma {:induction false} CollectedComeFromSlots(props: Properties, n: nat, parseJson: string -> Option<RawStation>, r: RawStation)
    requires r in CollectedUpTo(props, n, parseJson)
    ensures exists i :: 1 <= i <= n && SlotStation(props, i, parseJson) == Some(r)
  {
    var before := CollectedUpTo(props, n - 1, parseJson);
    if r in before {
      CollectedComeFromSlots(props, n - 1, parseJson, r);
    } else {
      assert SlotStation(props, n, parseJson) == Some(r);
    }
  }

  // ---------------------------------------------------------------------------
  // Grouping by train number
  // ---------------------------------------------------------------------------

  /** The trains with number `num`, in feed order. */
  function Filtered<T>(trains: seq<(string, T)>, num: string): (r: seq<T>)
    ensures |r| <= |trains|
  {
    if |trains| == 0 then []
    else
      var rest := Filtered(trains[..|trains| - 1], num);
      var last := trains[|trains| - 1];
      if last.0 == num then rest + [last.1] else rest
  }

  /** The train numbers present. */
  function NumbersOf<T>(trains: seq<(string, T)>): (nums: set<string>)
    ensures forall k :: 0 <= k < |trains| ==> trains[k].0 in nums
    ensures forall n :: n in nums ==> exists k :: 0 <= k < |trains| && trains[k].0 == n
  {
    set k | 0 <= k < |trains| :: trains[k].0
  }

  /** Grouping distributes over concatenation of the feed. */
  lemma {:induction false} FilteredAppend<T>(a: seq<(string, T)>, b: seq<(string, T)>, num: string)
    ensures Filtered(a + b, num) == Filtered(a, num) + Filtered(b, num)
    decreases |b|
  {
    if |b| == 0 {
      assert a + b == a;
    } else {
      var b' := b[..|b| - 1];
      assert (a + b)[..|a + b| - 1] == a + b';
      assert (a + b)[|a + b| - 1] == b[|b| - 1];
      FilteredAppend(a, b', num);
    }
  }

  /** A number that does not occur has no trains. */
  lemma {:induction false} FilteredAbsent<T>(trains: seq<(string, T)>, num: string)
    requires num !in NumbersOf(trains)
    ensures Filtered(trains, num) == []
  {
    if |trains| > 0 {
      var init := trains[..|trains| - 1];
      assert NumbersOf(init) <= NumbersOf(trains) by {
        forall n | n in NumbersOf(init) ensures n in NumbersOf(trains) {
          var k :| 0 <= k < |init| && init[k].0 == n;
          assert trains[k].0 == n;
        }
      }
      FilteredAbsent(init, num);
    }
  }

  /** `groups` holds, for every number in `trains`, exactly that number's
      trains in order. */
  ghost predicate GroupsOf<T>(groups: map<string, seq<T>>, trains: seq<(string, T)>) {
    && groups.Keys == NumbersOf(trains)
    && forall num :: num in groups ==> groups[num] == Filtered(trains, num)
  }

  /** `trains[num] = trains[num] || []; trains[num].push(train)`. */
  function Push<T>(groups: map<string, seq<T>>, entry: (string, T)): (g: map<string, seq<T>>)
    ensures g.Keys == groups.Keys + {entry.0}
    ensures forall num :: num in groups && num != entry.0 ==> g[num] == groups[num]
    ensures entry.0 in groups ==> g[entry.0] == groups[entry.0] + [entry.1]
    ensures entry.0 !in groups ==> g[entry.0] == [entry.1]
  {
    var existing := if entry.0 in groups then groups[entry.0] else [];
    groups[entry.0 := existing + [entry.1]]
  }

  /** Reading one more train adds its number. */
  lemma NumbersOfSnoc<T>(trains: seq<(string, T)>, entry: (string, T))
    ensures NumbersOf(trains + [entry]) == NumbersOf(trains) + {entry.0}
  {
    var longer := trains + [entry];
    forall n | n in NumbersOf(longer) ensures n in NumbersOf(trains) + {entry.0} {
      var k :| 0 <= k < |longer| && longer[k].0 == n;
      if k < |trains| {
        assert trains[k].0 == n;
      }
    }
    forall n | n in NumbersOf(trains) ensures n in NumbersOf(longer) {
      var k :| 0 <= k < |trains| && trains[k].0 == n;
      assert longer[k].0 == n;
    }
    assert longer[|trains|].0 == entry.0;
  }

  /** Reading one more train extends its number's group. */
  lemma FilteredSnoc<T>(trains: seq<(string, T)>, entry: (string, T), num: string)
    ensures Filtered(trains + [entry], num) == Filtered(trains, num) + (if entry.0 == num then [entry.1] else [])
  {
    var longer := trains + [entry];
    assert longer[..|longer| - 1] == trains;
  }

  /** One `push` keeps the groups those of the feed read so far. */
  lemma GroupStep<T>(groups: map<string, seq<T>>, trains: seq<(string, T)>)
    requires |trains| > 0 && GroupsOf(groups, trains[..|trains| - 1])
    ensures GroupsOf(Push(groups, trains[|trains| - 1]), trains)
  {
    var init, last := trains[..|trains| - 1], trains[|trains| - 1];
    assert init + [last] == trains;
    NumbersOfSnoc(init, last);
    if last.0 !in groups {
      FilteredAbsent(init, last.0);
    }
    forall num | num in Push(groups, last)
      ensures Push(groups, last)[num] == Filtered(trains, num)
    {
      FilteredSnoc(init, last, num);
    }
  }

  /** The grouping over the whole feed (`amtrakData.forEach`): one group per
      train number, holding that number's trains in feed order. */
  function GroupByTrainNum<T>(trains: seq<(string, T)>): (groups: map<string, seq<T>>)
    ensures groups.Keys == NumbersOf(trains)
    ensures forall num :: num in groups ==> groups[num] == Filtered(trains, num)
  {
    if |trains| == 0 then map[]
    else
      var groups := GroupByTrainNum(trains[..|trains| - 1]);
      GroupStep(groups, trains);
      Push(groups, trains[|trains| - 1])
  }
}

=== FILE: lateness.dfy ===
/** `generateCmnt` of index.ts: the human-readable lateness of a station
    event, computed from the scheduled and the actual (or estimated) date.

    The comment is built from the hours and minutes parts of the signed
    difference. As written, the hours clause appears only when the hours part
    is positive, the minutes part keeps its sign for early events, and a late
    event is "On Time" whenever its minutes part is below five, whatever its
    hours part. When either date is null, moment's invalid-date handling makes
    every part NaN and the comparison false.

    The model separates what the comment says (`Verdict`) from how it is
    spelled (`Text`). */
module Lateness {
  import opened Wrappers
  import opened Strings
  import opened Dates

  /** What a comment says: on time; early or late with the duration's hours
      and minutes parts; or NaN parts because a date did not parse. */
  datatype Verdict =
    | OnTime
    | Offset(hours: int, minutes: int, late: bool)
    | NotANumber

  /** The comment text: `(hrs > 0 ? hrs + " Hours, " : "") + (mins + " Minutes ") + earlyOrLate`,
      or "On Time". */
  function Text(v: Verdict): (s: string)
    ensures v.Offset? && !v.late && v.hours <= 0 ==> s == IntToString(v.minutes) + " Minutes Early"
  {
    match v
    case OnTime => "On Time"
    case NotANumber => "NaN Minutes Early"
    case Offset(hrs, mins, late) =>
      (if hrs > 0 then IntToString(hrs) + " Hours, " else "")
      + (IntToString(mins) + (if late then " Minutes Late" else " Minutes Early"))
  }

  /** Only the on-time verdict is spelled "On Time": every other text is
      longer. */
  lemma TextOnTime(v: Verdict)
    ensures Text(v) == "On Time" <==> v == OnTime
  {
    if v.Offset? {
      assert |Text(v)| >= 1 + |" Minutes Late"|;
    }
  }

  /** The last word tells late from early. */
  lemma TextSaysLate(v: Verdict)
    requires v.Offset?
    ensures v.late <==> Text(v)[|Text(v)| - 1] == 'e'
  {
  }

  /** The verdict for two parsed instants. */
  function Assess(scheduled: Option<Instant>, actual: Option<Instant>): (v: Verdict)
    ensures scheduled.None? || actual.None? ==> v == NotANumber
    ensures scheduled.Some? && actual.Some? ==>
      var diff := actual.value - scheduled.value;
      && (v == OnTime <==> scheduled.value < actual.value && Minutes(diff) < 5)
      && (v != OnTime ==> v == Offset(Hours(diff), Minutes(diff), scheduled.value < actual.value))
  {
    if scheduled.None? || actual.None? then NotANumber
    else
      var late := scheduled.value < actual.value;
      var diff := actual.value - scheduled.value;
      if Minutes(diff) < 5 && late then OnTime
      else Offset(Hours(diff), Minutes(diff), late)
  }

  /** A late verdict reports the duration's clock reading: its hours and
      minutes rebuild the difference modulo a day, up to the seconds. */
  lemma LateVerdictMatchesDuration(scheduled: Instant, actual: Instant)
    requires Assess(Some(scheduled), Some(actual)).Offset?
    requires scheduled < actual
    ensures var v := Assess(Some(scheduled), Some(actual));
      (actual - scheduled) % MsPerDay == v.hours * MsPerHour + v.minutes * MsPerMinute + (actual - scheduled) % MsPerMinute
  {
    PartsDecompose(actual - scheduled);
  }

  /** `generateCmnt(scheduledDate, actualDate, code)`: both texts are read
      with `parseDate` in the station's zone and compared. */
  function GenerateCmnt(scheduledDate: Option<string>, actualDate: Option<string>, code: Option<string>, env: Env): (r: string)
    ensures scheduledDate.None? || actualDate.None? || code.None? ==> r == "NaN Minutes Early"
    ensures r == "On Time" <==>
      var s := ParseDate(scheduledDate, code, env);
      var a := ParseDate(actualDate, code, env);
      s.Some? && a.Some? && s.value < a.value && Minutes(a.value - s.value) < 5
    ensures ParseDate(scheduledDate, code, env).None? || ParseDate(actualDate, code, env).None? ==>
      r == "NaN Minutes Early"
    ensures
      var s := ParseDate(scheduledDate, code, env);
      var a := ParseDate(actualDate, code, env);
      s.Some? && a.Some? && r != "On Time" ==>
        r == Text(Offset(Hours(a.value - s.value), Minutes(a.value - s.value), s.value < a.value))
  {
    var v := Assess(ParseDate(scheduledDate, code, env), ParseDate(actualDate, code, env));
    TextOnTime(v);
    Text(v)
  }

  /** From the raw texts: two dates that parse to instants between five
      minutes and an hour apart give "<m> Minutes Late". */
  lemma CommentLateWithinTheHour(scheduledDate: string, actualDate: string, code: string, env: Env,
                                 minutes: nat, rest: nat)
    requires 5 <= minutes < 60 && rest < MsPerMinute
    requires ParseDate(Some(scheduledDate), Some(code), env).Some?
    requires ParseDate(Some(actualDate), Some(code), env) ==
      Some(ParseDate(Some(scheduledDate), Some(code), env).value + minutes * MsPerMinute + rest)
    ensures GenerateCmnt(Some(scheduledDate), Some(actualDate), Some(code), env) == IntToString(minutes) + " Minutes Late"
  {
    LateWithinTheHour(ParseDate(Some(scheduledDate), Some(code), env).value, minutes, rest);
  }

  /** Late by less than five minutes past a whole number of hours is on
      time: only the minutes part is compared with five. */
  lemma LateByWholeHoursIsOnTime(scheduled: Instant, hours: nat, rest: int)
    requires 0 <= rest < 5 * MsPerMinute
    requires hours * MsPerHour + rest > 0
    ensures Assess(Some(scheduled), Some(scheduled + hours * MsPerHour + rest)) == OnTime
  {
    var diff := hours * MsPerHour + rest;
    assert diff / MsPerMinute == hours * 60 + rest / MsPerMinute;
    assert (hours * 60 + rest / MsPerMinute) % 60 == rest / MsPerMinute;
  }

  /** Between five minutes and an hour late, the comment is the minutes
      count followed by " Minutes Late", with no hours clause. */
  lemma LateWithinTheHour(scheduled: Instant, minutes: nat, rest: nat)
    requires 5 <= minutes < 60 && rest < MsPerMinute
    ensures Assess(Some(scheduled), Some(scheduled + minutes * MsPerMinute + rest)) == Offset(0, minutes, true)
    ensures Text(Offset(0, minutes, true)) == IntToString(minutes) + " Minutes Late"
  {
    PartsOf(0, minutes, rest);
  }

  /** Hours and minutes late: both clauses appear. */
  lemma LateByHoursAndMinutes(scheduled: Instant, hours: nat, minutes: nat, rest: nat)
    requires 1 <= hours < 24 && 5 <= minutes < 60 && rest < MsPerMinute
    ensures Assess(Some(scheduled), Some(scheduled + hours * MsPerHour + minutes * MsPerMinute + rest))
      == Offset(hours, minutes, true)
    ensures Text(Offset(hours, minutes, true)) == IntToString(hours) + " Hours, " + (IntToString(minutes) + " Minutes Late")
  {
    PartsOf(hours, minutes, rest);
  }

  /** An early event under an hour reports its minutes with a minus sign and
      no hours clause. */
  lemma EarlyWithinTheHour(scheduled: Instant, minutes: nat, rest: nat)
    requires minutes < 60 && rest < MsPerMinute && minutes * MsPerMinute + rest > 0
    ensures Assess(Some(scheduled), Some(scheduled - (minutes * MsPerMinute + rest))) == Offset(0, -(minutes as int), false)
  {
    var d := minutes * MsPerMinute + rest;
    PartsOf(0, minutes, rest);
    PartsOfNegative(d);
    assert (scheduled - d) - scheduled == -d;
  }

  /** An event at exactly the scheduled time is early by zero minutes. */
  lemma ExactlyOnScheduleIsEarly(t: Instant)
    ensures Assess(Some(t), Some(t)) == Offset(0, 0, false)
  {
    PartsOf(0, 0, 0);
  }

  /** ... and that verdict is spelled "0 Minutes Early". */
  lemma ZeroMinutesEarlyText()
    ensures Text(Offset(0, 0, false)) == "0 Minutes Early"
  {
    var zero := IntToString(0);
    assert zero == "0" by {
      assert NatToString(0) == [DigitChar(0)];
    }
    assert Text(Offset(0, 0, false)) == zero + " Minutes Early";
  }

  /** Early comments identify the minutes part. */
  lemma EarlyTextsDistinguishMinutes(ha: int, ma: int, hb: int, mb: int)
    requires ha <= 0 && hb <= 0 && ma != mb
    ensures Text(Offset(ha, ma, false)) != Text(Offset(hb, mb, false))
  {
    var word := " Minutes Early";
    if IntToString(ma) + word == IntToString(mb) + word {
      AppendCancel(IntToString(ma), IntToString(mb), word);
      IntToStringEquals(ma, mb);
    }
  }
}

=== FILE: payload.dfy ===
/** The envelope of the two Amtrak map-data answers (index.ts,
    `fetchTrainsForCleaning` and `fetchStationsForCleaning`): the response
    text ends in an 88-character segment, encrypted with a public key, that
    holds the private key in front of a `|`; the rest of the text is the
    body, encrypted with that private key.

    AES decryption (crypto-js with PBKDF2) is a parameter: it maps a
    ciphertext and a key to a plaintext, or to `None` when crypto-js throws. */
module Payload {
  import opened Wrappers
  import opened Strings

  const MasterSegment: nat := 88
  const PublicKey: string := "69af143c-e8cf-47f8-bf09-fc1f61e5cc33"

  function Max(a: int, b: int): int { if a >= b then a else b }
  function Min(a: int, b: int): int { if a <= b then a else b }

  /** `s.substring(start, end)`: both bounds clamped to the string, then
      swapped if out of order. */
  function JsSubstring(s: string, start: int, end: int): (r: string)
    ensures |r| <= |s|
    ensures 0 <= start <= end <= |s| ==> r == s[start..end]
    ensures end <= 0 && start <= 0 ==> r == ""
  {
    var a := Min(Max(start, 0), |s|);
    var b := Min(Max(end, 0), |s|);
    if a <= b then s[a..b] else s[b..a]
  }

  /** `s.substr(start, length)`: a negative start counts from the end (and
      stops at 0), the length is cut at the end of the string. */
  function JsSubstr(s: string, start: int, length: int): (r: string)
    ensures |r| <= |s|
    ensures 0 <= start && 0 <= length && start + length <= |s| ==> r == s[start..start + length]
    ensures 0 <= start <= |s| && 0 <= length ==> r == s[start..Min(start + length, |s|)]
    ensures start < 0 && length >= |s| ==> r == s[Max(|s| + start, 0)..]
  {
    var from := if start < 0 then Max(|s| + start, 0) else Min(start, |s|);
    var count := Min(Max(length, 0), |s| - from);
    if count <= 0 then "" else s[from..from + count]
  }

  /** `data.substring(0, data.length - masterSegment)`. */
  function MainContent(data: string): (r: string)
    ensures |data| >= MasterSegment ==> r == data[..|data| - MasterSegment]
    ensures |data| < MasterSegment ==> r == ""
  {
    JsSubstring(data, 0, |data| - MasterSegment)
  }

  /** `data.substr(data.length - masterSegment, data.length)`. */
  function EncryptedPrivateKey(data: string): (r: string)
    ensures |data| >= MasterSegment ==> r == data[|data| - MasterSegment..]
    ensures |data| < MasterSegment ==> r == data[Max(2 * |data| - MasterSegment, 0)..]
  {
    JsSubstr(data, |data| - MasterSegment, |data|)
  }

  /** A response of at least 88 characters is cut into a body and an
      88-character trailer that together give it back. */
  lemma SplitRoundTrip(data: string)
    requires |data| >= MasterSegment
    ensures MainContent(data) + EncryptedPrivateKey(data) == data
    ensures |EncryptedPrivateKey(data)| == MasterSegment
  {
    assert data[..|data| - MasterSegment] + data[|data| - MasterSegment..] == data;
  }

  /** A shorter response is not rejected: the body is empty and the trailer
      is a suffix of the response. */
  lemma ShortResponse(data: string)
    requires |data| < MasterSegment
    ensures MainContent(data) == ""
    ensures |EncryptedPrivateKey(data)| == |data| - Max(2 * |data| - MasterSegment, 0)
    ensures |data| <= MasterSegment / 2 ==> EncryptedPrivateKey(data) == data
  {
  }

  /** `plaintext.split("|")[0]`: everything before the first `|`. */
  function KeyBeforeBar(plaintext: string): (key: string)
    ensures |key| <= |plaintext| && key == plaintext[..|key|]
    ensures '|' !in key
    ensures |key| == |plaintext| || plaintext[|key|] == '|'
  {
    SplitHead(plaintext, '|');
    Split(plaintext, '|')[0]
  }

  /** The key is recovered from any plaintext that starts with it and a
      bar. */
  lemma KeyBeforeBarOf(key: string, rest: string)
    requires '|' !in key
    ensures KeyBeforeBar(key + "|" + rest) == key
  {
    var p := key + "|" + rest;
    var k := KeyBeforeBar(p);
    assert p[..|key|] == key && p[|key|] == '|';
    assert |k| == |key| by {
      if |k| < |key| {
        assert false;
      } else if |k| > |key| {
        assert false;
      }
    }
  }

  /** The decrypted private key: `decrypt(encryptedPrivateKey, publicKey).split("|")[0]`. */
  function PrivateKey(data: string, decrypt: (string, string) -> Option<string>): (r: Option<string>)
    ensures r.Some? <==> decrypt(EncryptedPrivateKey(data), PublicKey).Some?
    ensures r.Some? ==> r.value == KeyBeforeBar(decrypt(EncryptedPrivateKey(data), PublicKey).value)
  {
    match decrypt(EncryptedPrivateKey(data), PublicKey)
    case None => None
    case Some(plain) => Some(KeyBeforeBar(plain))
  }

  /** The decrypted body `decrypt(mainContent, privateKey)`, before
      `JSON.parse`. */
  function Plaintext(data: string, decrypt: (string, string) -> Option<string>): (r: Option<string>)
    ensures PrivateKey(data, decrypt).None? ==> r.None?
    ensures r.Some? ==> decrypt(MainContent(data), PrivateKey(data, decrypt).value) == r
    ensures PrivateKey(data, decrypt).Some? ==> r == decrypt(MainContent(data), PrivateKey(data, decrypt).value)
  {
    match PrivateKey(data, decrypt)
    case None => None
    case Some(key) => decrypt(MainContent(data), key)
  }

  /** A response built from a body and an 88-character trailer whose
      decryption is `key|…` is decrypted with exactly that key. */
  lemma EnvelopeOpens(body: string, trailer: string, key: string, rest: string, decrypt: (string, string) -> Option<string>)
    requires |trailer| == MasterSegment && '|' !in key
    requires decrypt(trailer, PublicKey) == Some(key + "|" + rest)
    ensures PrivateKey(body + trailer, decrypt) == Some(key)
    ensures Plaintext(body + trailer, decrypt) == decrypt(body, key)
  {
    var data := body + trailer;
    assert MainContent(data) == body;
    assert EncryptedPrivateKey(data) == trailer;
    KeyBeforeBarOf(key, rest);
  }
}

=== FILE: scheduler.dfy ===
/** The `Cron` class of cron.ts: a list of registered jobs, the fail-fast
    registration `add`, and the selection `start` makes on each tick. The
    timer that re-arms `start` and the calls of the selected jobs are not
    modelled; a job's action is an opaque value of type `F`. */
module Scheduler {
  import opened Wrappers
  import opened Strings
  import opened CronFields
  import opened CronShape

  datatype Job<F> = Job(schedule: string, fn: F)

  /** The error `add` throws: `invalid crontab: <schedule>!`. */
  datatype AddError = InvalidCrontab(schedule: string) {
    /** The rejected schedule can be read back from the message. */
    function Message(): (m: string)
      ensures |m| == |schedule| + 18
      ensures m[..17] == "invalid crontab: " && m[|m| - 1] == '!'
      ensures m[17..|m| - 1] == schedule
    {
      "invalid crontab: " + schedule + "!"
    }
  }

  /** `add(schedule, fn)`: rejects a schedule that fails the shape check and
      otherwise appends exactly one job at the end. */
  function AddJob<F>(jobs: seq<Job<F>>, schedule: string, fn: F): (r: Result<seq<Job<F>>, AddError>)
    ensures r.Failure? <==> !ShapeOk(schedule)
    ensures r.Failure? ==> r.error == InvalidCrontab(schedule)
    ensures r.Success? ==>
      && |r.value| == |jobs| + 1
      && r.value[..|jobs|] == jobs
      && r.value[|jobs|] == Job(schedule, fn)
  {
    if !ShapeOk(schedule) then Failure(InvalidCrontab(schedule))
    else Success(jobs + [Job(schedule, fn)])
  }

  /** `jobs.filter(test)` where the callback `test` may throw: the first
      error aborts the whole selection. */
  function Select<F>(jobs: seq<Job<F>>, test: string -> Result<bool, MatchError>): (r: Result<seq<Job<F>>, MatchError>)
    ensures r.Success? <==> forall i :: 0 <= i < |jobs| ==> test(jobs[i].schedule).Success?
    ensures r.Success? ==> |r.value| <= |jobs|
    ensures r.Success? ==> forall k :: 0 <= k < |r.value| ==>
      r.value[k] in jobs && test(r.value[k].schedule) == Success(true)
    ensures r.Success? ==> forall i :: 0 <= i < |jobs| && test(jobs[i].schedule) == Success(true) ==>
      jobs[i] in r.value
  {
    if |jobs| == 0 then Success([])
    else
      assert forall i :: 1 <= i < |jobs| ==> jobs[1..][i - 1] == jobs[i];
      match test(jobs[0].schedule)
      case Failure(e) => Failure(e)
      case Success(due) =>
        match Select(jobs[1..], test)
        case Failure(e) => Failure(e)
        case Success(rest) => Success(if due then [jobs[0]] + rest else rest)
  }

  /** Selecting from two lists in turn: the first failure wins, otherwise the
      selections are concatenated. */
  function Then<T>(a: Result<seq<T>, MatchError>, b: Result<seq<T>, MatchError>): Result<seq<T>, MatchError> {
    match a
    case Failure(e) => Failure(e)
    case Success(x) =>
      match b
      case Failure(e) => Failure(e)
      case Success(y) => Success(x + y)
  }

  /** The selection keeps registration order: selecting from `a + b` is
      selecting from `a`, then from `b`. */
  lemma {:induction false} SelectAppend<F>(a: seq<Job<F>>, b: seq<Job<F>>, test: string -> Result<bool, MatchError>)
    ensures Select(a + b, test) == Then(Select(a, test), Select(b, test))
    decreases |a|
  {
    if |a| == 0 {
      assert a + b == b;
      match Select(b, test)
      case Failure(e) =>
      case Success(y) => assert [] + y == y;
    } else {
      assert (a + b)[0] == a[0];
      assert (a + b)[1..] == a[1..] + b;
      SelectAppend(a[1..], b, test);
      match test(a[0].schedule)
      case Failure(e) =>
      case Success(due) =>
        match Select(a[1..], test)
        case Failure(e) =>
        case Success(rest) =>
          match Select(b, test)
          case Failure(e) =>
          case Success(y) =>
            if due {
              assert [a[0]] + (rest + y) == ([a[0]] + rest) + y;
            }
    }
  }

  /** A single job is selected exactly when its test says so. */
  lemma SelectSingle<F>(job: Job<F>, test: string -> Result<bool, MatchError>)
    ensures Select([job], test) ==
      match test(job.schedule)
      case Failure(e) => Failure(e)
      case Success(due) => Success(if due then [job] else [])
  {
    assert [job][1..] == [];
    assert Select([job][1..], test) == Success([]);
    assert [job] + [] == [job];
  }

  /** The tick's test: `timeForCron(now, schedule)` for one fixed `now`. */
  function DueAt(now: Now): string -> Result<bool, MatchError> {
    s => TimeForCron(now, s)
  }

  /** `this.jobs.filter(({ schedule }) => timeForCron(now, schedule))`: the
      jobs whose schedule matches `now`, in registration order; the filter
      throws for a schedule with fewer than five fields. */
  function SelectDue<F>(jobs: seq<Job<F>>, now: Now): (r: Result<seq<Job<F>>, MatchError>)
    ensures r.Success? <==> forall i :: 0 <= i < |jobs| ==> TimeForCron(now, jobs[i].schedule).Success?
    ensures r.Success? ==> forall k :: 0 <= k < |r.value| ==>
      r.value[k] in jobs && TimeForCron(now, r.value[k].schedule) == Success(true)
    ensures r.Success? ==> forall i :: 0 <= i < |jobs| && TimeForCron(now, jobs[i].schedule) == Success(true) ==>
      jobs[i] in r.value
  {
    Select(jobs, DueAt(now))
  }

  /** Registering a job adds it at the end of the selection exactly when its
      schedule matches, leaving the selection of the earlier jobs unchanged. */
  lemma AddThenSelect<F>(jobs: seq<Job<F>>, schedule: string, fn: F, now: Now, jobs': seq<Job<F>>, due: seq<Job<F>>)
    requires AddJob(jobs, schedule, fn) == Success(jobs')
    requires SelectDue(jobs, now) == Success(due)
    ensures TimeForCron(now, schedule).Success?
    ensures SelectDue(jobs', now) ==
      Success(due + if TimeForCron(now, schedule) == Success(true) then [Job(schedule, fn)] else [])
  {
    assert jobs' == jobs + [Job(schedule, fn)];
    SelectAppend(jobs, [Job(schedule, fn)], DueAt(now));
    SelectSingle(Job(schedule, fn), DueAt(now));
    ShapeOkHasFiveFields(schedule);
  }

  /** Every registered schedule passed the shape check. */
  ghost predicate AllShapeOk<F>(jobs: seq<Job<F>>) {
    forall i :: 0 <= i < |jobs| ==> ShapeOk(jobs[i].schedule)
  }

  /** Jobs registered through `add` never make the selection throw. */
  lemma RegisteredJobsSelect<F>(jobs: seq<Job<F>>, now: Now)
    requires AllShapeOk(jobs)
    ensures SelectDue(jobs, now).Success?
  {
    forall i | 0 <= i < |jobs|
      ensures TimeForCron(now, jobs[i].schedule).Success?
    {
      ShapeOkHasFiveFields(jobs[i].schedule);
    }
  }

  /** `* * * * *` passes the shape check `add` applies. */
  lemma EveryMinuteShapeOk()
    ensures ShapeOk("* * * * *")
  {
    var fields := ["*", "*", "*", "*", "*"];
    assert Join(fields, ' ') == "* * * * *";
    TokenFieldsPass(fields);
  }

  /** A job registered with `* * * * *` is selected on every tick. */
  lemma EveryMinuteJobIsSelected<F>(jobs: seq<Job<F>>, fn: F, now: Now, jobs': seq<Job<F>>)
    requires AllShapeOk(jobs)
    requires AddJob(jobs, "* * * * *", fn) == Success(jobs')
    ensures SelectDue(jobs', now).Success?
    ensures Job("* * * * *", fn) in SelectDue(jobs', now).value
  {
    RegisteredJobsSelect(jobs, now);
    AllStarsMatchEverything(now);
    AddThenSelect(jobs, "* * * * *", fn, now, jobs', SelectDue(jobs, now).value);
  }

  /** `add` checks only the shape of a schedule, not its ranges: a minute
      field of 60 or more is accepted, and such a job never runs. */
  lemma OutOfRangeMinuteAcceptedNeverDue<F>(n: nat, jobs: seq<Job<F>>, fn: F, now: Now)
    requires n >= 60 && now.Valid()
    ensures AddJob(jobs, NatToString(n) + " * * * *", fn).Success?
    ensures TimeForCron(now, NatToString(n) + " * * * *") == Success(false)
  {
    OutOfRangeMinuteAccepted(n, jobs, fn);
    OutOfRangeMinuteNeverDue(n, now);
  }

  /** `add` accepts `n * * * *` for every number `n`. */
  lemma OutOfRangeMinuteAccepted<F>(n: nat, jobs: seq<Job<F>>, fn: F)
    ensures AddJob(jobs, NatToString(n) + " * * * *", fn).Success?
  {
    var fields := MinuteThenStars(NatToString(n));
    TokenFieldsPass(fields);
  }

  /** `n * * * *` is due only in minute `n`, which a valid time never has
      when `n` is 60 or more. */
  lemma OutOfRangeMinuteNeverDue(n: nat, now: Now)
    requires n >= 60 && now.Valid()
    ensures TimeForCron(now, NatToString(n) + " * * * *") == Success(false)
  {
    var fields := MinuteThenStars(NatToString(n));
    ScheduleOfFields(now, fields);
    NumberField(n, Minute, now.minute);
  }

  /** The day fields are the exception: `timeForCron` ORs them, so a `*` in
      the other day field matches whatever the day of the month says.
      `add` accepts `0 0 d * *` for every number `d`, 32 and beyond included,
      and the job runs at every midnight. */
  lemma DayOfMonthOutOfRangeStillDue<F>(d: nat, jobs: seq<Job<F>>, fn: F, now: Now)
    ensures AddJob(jobs, "0 0 " + NatToString(d) + " * *", fn).Success?
    ensures TimeForCron(now, "0 0 " + NatToString(d) + " * *") == Success(now.minute == 0 && now.hour == 0)
  {
    var day := NatToString(d);
    assert "0 0 " + day + " * " + "*" == "0 0 " + day + " * *";
    MidnightAccepted(day, "*", jobs, fn);
    MidnightSchedule(now, day, "*");
    StarField(DayOfWeek, now.dayOfWeek);
  }

  /** Likewise `0 0 * * w` is accepted for every number `w`, 7 and beyond
      included, and runs at every midnight through its `*` day of the month. */
  lemma DayOfWeekOutOfRangeStillDue<F>(w: nat, jobs: seq<Job<F>>, fn: F, now: Now)
    ensures AddJob(jobs, "0 0 * * " + NatToString(w), fn).Success?
    ensures TimeForCron(now, "0 0 * * " + NatToString(w)) == Success(now.minute == 0 && now.hour == 0)
  {
    var weekday := NatToString(w);
    assert "0 0 " + "*" + " * " + weekday == "0 0 * * " + weekday;
    MidnightAccepted("*", weekday, jobs, fn);
    MidnightSchedule(now, "*", weekday);
    StarField(DayOfMonth, now.dayOfMonth);
  }

  /** `add` accepts `0 0 d * w` when both day fields are tokens. */
  lemma MidnightAccepted<F>(d: string, w: string, jobs: seq<Job<F>>, fn: F)
    requires |d| >= 1 && forall k :: 0 <= k < |d| ==> IsTokenChar(d[k])
    requires |w| >= 1 && forall k :: 0 <= k < |w| ==> IsTokenChar(w[k])
    ensures AddJob(jobs, "0 0 " + d + " * " + w, fn).Success?
  {
    var fields := MidnightFields(d, w);
    TokenFieldsPass(fields);
  }

  /** `0 0 d * w` is due at midnight exactly when one of its day fields
      matches. */
  lemma MidnightSchedule(now: Now, d: string, w: string)
    requires ' ' !in d && ' ' !in w
    ensures TimeForCron(now, "0 0 " + d + " * " + w) == Success(now.minute == 0 && now.hour == 0 &&
      (FieldMatches(d, DayOfMonth, now.dayOfMonth) || FieldMatches(w, DayOfWeek, now.dayOfWeek)))
  {
    var fields := MidnightFields(d, w);
    ZeroText();
    assert FiveFields(fields);
    ScheduleOfFields(now, fields);
    NumberField(0, Minute, now.minute);
    NumberField(0, Hour, now.hour);
    StarField(Month, now.month);
  }

  /** `0 0 d * w` is the five fields it is written with. */
  lemma MidnightFields(d: string, w: string) returns (fields: seq<string>)
    ensures fields == ["0", "0", d, "*", w]
    ensures Join(fields, ' ') == "0 0 " + d + " * " + w
  {
    fields := ["0", "0", d, "*", w];
    var last := ["*", w];
    assert last[1..] == [w];
    assert Join(last, ' ') == "*" + [' '] + w;
    var tail := [d] + last;
    assert tail[1..] == last;
    assert Join(tail, ' ') == d + [' '] + ("*" + [' '] + w);
    assert d + [' '] + ("*" + [' '] + w) == d + " * " + w;
    assert fields[1..] == ["0"] + tail && fields[1..][1..] == tail;
    assert Join(fields[1..], ' ') == "0" + [' '] + Join(tail, ' ');
  }

  /** `m * * * *` is the minute field `m` followed by four stars. */
  lemma MinuteThenStars(m: string) returns (fields: seq<string>)
    ensures fields == [m, "*", "*", "*", "*"]
    ensures Join(fields, ' ') == m + " * * * *"
  {
    var stars := ["*", "*", "*", "*"];
    fields := [m] + stars;
    assert Join(stars, ' ') == "* * * *";
    assert fields[1..] == stars;
    assert [' '] + "* * * *" == " * * * *";
  }

  /** The scheduler object: `jobs` only grows through `Add`. */
  class Cron<F> {
    var jobs: seq<Job<F>>

    ghost predicate Valid()
      reads this
    {
      AllShapeOk(jobs)
    }

    constructor()
      ensures jobs == [] && Valid()
    {
      jobs := [];
    }

    /** `add`: on failure `jobs` is left as it was. */
    method Add(schedule: string, fn: F) returns (r: Result<(), AddError>)
      requires Valid()
      modifies this
      ensures Valid()
      ensures r.Failure? <==> !ShapeOk(schedule)
      ensures r.Failure? ==> jobs == old(jobs)
      ensures r.Success? ==> jobs == old(jobs) + [Job(schedule, fn)]
    {
      match AddJob(jobs, schedule, fn)
      case Failure(e) =>
        r := Failure(e);
      case Success(js) =>
        jobs := js;
        r := Success(());
    }

    /** One tick of `start`: the jobs to invoke for this `now`. */
    method Start(now: Now) returns (due: seq<Job<F>>)
      requires Valid()
      ensures SelectDue(jobs, now) == Success(due)
    {
      RegisteredJobsSelect(jobs, now);
      due := SelectDue(jobs, now).value;
    }
  }
}

=== FILE: stations.dfy ===
/** `parseRawStation` of index.ts: one raw station record of the Amtrak feed
    becomes a `Station` with a status, arrival and departure instants and
    lateness comments.

    JavaScript distinguishes a field never assigned (`undefined`, omitted
    from the JSON answer) from one assigned `null`. The model writes the
    first as the outer `None` of a field and the second as `Some(None)`. */
module Stations {
  import opened Wrappers
  import opened Dates
  import opened Lateness

  /** `StationStatus` of types/amtraker.ts; its `Station` member is called
      `AtStation` here to keep it apart from the record type. */
  datatype StationStatus = Enroute | AtStation | Departed | Unknown

  /** The raw record of types/amtrak.ts; `null`-able fields are options. */
  datatype RawStation = RawStation(
    code: string,
    tz: string,
    bus: bool,
    scharr: Option<string>,
    schdep: Option<string>,
    schcmnt: string,
    autoarr: bool,
    autodep: bool,
    estarr: Option<string>,
    estdep: Option<string>,
    postarr: Option<string>,
    postdep: Option<string>,
    postcmnt: Option<string>,
    estarrcmnt: Option<string>,
    estdepcmnt: Option<string>)

  /** The cleaned record. `name` and `tz` are absent when the station is
      missing from the metadata; `arr`, `dep`, the comments and `status`
      are absent when no branch assigned them. */
  datatype Station = Station(
    name: Option<string>,
    code: string,
    tz: Option<string>,
    bus: bool,
    schArr: Option<Instant>,
    schDep: Option<Instant>,
    arr: Option<Option<Instant>>,
    dep: Option<Option<Instant>>,
    arrCmnt: Option<string>,
    depCmnt: Option<string>,
    status: Option<StationStatus>)

  /** The branch of `parseRawStation` a record takes. `LastArrived` is the
      branch guarded by `postarr != null` inside the test that `postarr` is
      null; no record reaches it. */
  datatype Branch =
    | FirstDeparted | FirstAtStation
    | LastArrived | LastEnroute
    | InteriorEnroute | InteriorAtStation | InteriorDeparted
    | Unassigned

  /** The branch selection, test for test as the code makes it. */
  function Classify(raw: RawStation): (b: Branch)
    ensures b != LastArrived
    ensures b == FirstDeparted || b == FirstAtStation <==> raw.estarr.None? && raw.postarr.None?
    ensures b == Unassigned <==> raw.postarr.Some? && raw.postdep.None? && raw.estdep.None?
  {
    if raw.estarr.None? && raw.postarr.None? then
      if raw.postdep.Some? then FirstDeparted else FirstAtStation
    else if raw.postarr.None? && raw.postdep.None? then
      if raw.postarr.Some? then LastArrived else LastEnroute
    else if raw.estarr.Some? && raw.estdep.Some? then InteriorEnroute
    else if raw.postarr.Some? && raw.estdep.Some? then InteriorAtStation
    else if raw.postdep.Some? then InteriorDeparted
    else Unassigned
  }

  /** The status each branch assigns. */
  function StatusOf(b: Branch): Option<StationStatus> {
    match b
    case FirstDeparted | InteriorDeparted => Some(Departed)
    case FirstAtStation | LastArrived | InteriorAtStation => Some(AtStation)
    case LastEnroute | InteriorEnroute => Some(Enroute)
    case Unassigned => None
  }

  /** What `parseRawStation` assigns to its local variables. */
  datatype Assigned = Assigned(
    status: Option<StationStatus>,
    arr: Option<Option<Instant>>,
    dep: Option<Option<Instant>>,
    arrCmnt: Option<string>,
    depCmnt: Option<string>)

  /** `a ?? b`. */
  function OrElse(a: Option<string>, b: Option<string>): (r: Option<string>)
    ensures a.Some? ==> r == a
    ensures a.None? ==> r == b
  {
    if a.Some? then a else b
  }

  /** The raw time an arrival is read from: the estimate while the train is
      en route to the station, the actual arrival otherwise. */
  function ArrivalText(raw: RawStation, status: Option<StationStatus>): Option<string> {
    if status == Some(Enroute) then raw.estarr else raw.postarr
  }

  /** The raw time a departure is read from: the actual departure once the
      train has departed, the estimate otherwise. */
  function DepartureText(raw: RawStation, status: Option<StationStatus>): Option<string> {
    if status == Some(Departed) then raw.postdep else raw.estdep
  }

  /** The schedule an arrival comment compares with: `scharr` alone when no
      actual time is known (the last station), `scharr ?? schdep` otherwise. */
  function ArrivalSchedule(raw: RawStation): (r: Option<string>)
    ensures raw.scharr.Some? ==> r == raw.scharr
    ensures r.Some? ==> r == raw.scharr || r == raw.schdep
    ensures r == raw.schdep && r != raw.scharr ==> raw.postarr.Some? || raw.postdep.Some?
  {
    if raw.postarr.None? && raw.postdep.None? then raw.scharr else OrElse(raw.scharr, raw.schdep)
  }

  /** The assignments of the chosen branch. Arrival comments compare with
      `scharr ?? schdep` at interior stations but with `scharr` alone at the
      last one; departure comments always compare with `schdep`. */
  function Assign(raw: RawStation, env: Env): (a: Assigned)
    ensures a.status == StatusOf(Classify(raw))
    ensures a.arr.Some? <==> a.arrCmnt.Some?
    ensures a.dep.Some? <==> a.depCmnt.Some?
    ensures a.arr.Some? <==> a.status.Some? && (raw.estarr.Some? || raw.postarr.Some?)
    ensures a.dep.Some? <==> a.status.Some? && !(raw.estarr.Some? && raw.postarr.None? && raw.postdep.None?)
    ensures a.arr.Some? ==>
      && a.arr == Some(ParseDate(ArrivalText(raw, a.status), Some(raw.code), env))
      && a.arrCmnt == Some(GenerateCmnt(ArrivalSchedule(raw), ArrivalText(raw, a.status), Some(raw.code), env))
    ensures a.dep.Some? ==>
      && a.dep == Some(ParseDate(DepartureText(raw, a.status), Some(raw.code), env))
      && a.depCmnt == Some(GenerateCmnt(raw.schdep, DepartureText(raw, a.status), Some(raw.code), env))
  {
    var code := Some(raw.code);
    var parse := (t: Option<string>) => ParseDate(t, code, env);
    var cmnt := (s: Option<string>, t: Option<string>) => GenerateCmnt(s, t, code, env);
    var interiorSch := OrElse(raw.scharr, raw.schdep);
    match Classify(raw)
    case FirstDeparted =>
      Assigned(Some(Departed), None, Some(parse(raw.postdep)), None, Some(cmnt(raw.schdep, raw.postdep)))
    case FirstAtStation =>
      Assigned(Some(AtStation), None, Some(parse(raw.estdep)), None, Some(cmnt(raw.schdep, raw.estdep)))
    case LastArrived =>
      Assigned(Some(AtStation), Some(parse(raw.postarr)), None, Some(cmnt(raw.scharr, raw.postarr)), None)
    case LastEnroute =>
      Assigned(Some(Enroute), Some(parse(raw.estarr)), None, Some(cmnt(raw.scharr, raw.estarr)), None)
    case InteriorEnroute =>
      Assigned(Some(Enroute), Some(parse(raw.estarr)), Some(parse(raw.estdep)),
        Some(cmnt(interiorSch, raw.estarr)), Some(cmnt(raw.schdep, raw.estdep)))
    case InteriorAtStation =>
      Assigned(Some(AtStation), Some(parse(raw.postarr)), Some(parse(raw.estdep)),
        Some(cmnt(interiorSch, raw.postarr)), Some(cmnt(raw.schdep, raw.estdep)))
    case InteriorDeparted =>
      Assigned(Some(Departed), Some(parse(raw.postarr)), Some(parse(raw.postdep)),
        Some(cmnt(interiorSch, raw.postarr)), Some(cmnt(raw.schdep, raw.postdep)))
    case Unassigned =>
      Assigned(None, None, None, None, None)
  }

  /** `map[key]`, undefined when the key is missing. */
  function Lookup(m: map<string, string>, key: string): (r: Option<string>)
    ensures r.Some? <==> key in m
    ensures r.Some? ==> r.value == m[key]
  {
    if key in m then Some(m[key]) else None
  }

  /** `parseRawStation(rawStation)`. */
  function ParseRawStation(raw: RawStation, env: Env): (s: Station)
    ensures s.code == raw.code && s.bus == raw.bus
    ensures s.name == Lookup(env.stationNames, raw.code)
    ensures s.tz == Lookup(env.timeZones, raw.code)
    ensures s.schArr == ParseDate(raw.scharr, Some(raw.code), env)
    ensures s.schDep == ParseDate(raw.schdep, Some(raw.code), env)
    ensures s.status != Some(Unknown)
    ensures s.status.None? <==> raw.postarr.Some? && raw.postdep.None? && raw.estdep.None?
    ensures s.status.None? ==> s.arr.None? && s.dep.None? && s.arrCmnt.None? && s.depCmnt.None?
    ensures s.arr.Some? <==> s.arrCmnt.Some?
    ensures s.dep.Some? <==> s.depCmnt.Some?
    ensures s.arr.Some? <==> s.status.Some? && (raw.estarr.Some? || raw.postarr.Some?)
    ensures s.dep.Some? <==> s.status.Some? && !(raw.estarr.Some? && raw.postarr.None? && raw.postdep.None?)
    ensures s.arr.Some? ==>
      && s.arr == Some(ParseDate(ArrivalText(raw, s.status), Some(raw.code), env))
      && s.arrCmnt == Some(GenerateCmnt(ArrivalSchedule(raw), ArrivalText(raw, s.status), Some(raw.code), env))
    ensures s.dep.Some? ==>
      && s.dep == Some(ParseDate(DepartureText(raw, s.status), Some(raw.code), env))
      && s.depCmnt == Some(GenerateCmnt(raw.schdep, DepartureText(raw, s.status), Some(raw.code), env))
  {
    var a := Assign(raw, env);
    Station(
      Lookup(env.stationNames, raw.code), raw.code, Lookup(env.timeZones, raw.code), raw.bus,
      ParseDate(raw.scharr, Some(raw.code), env), ParseDate(raw.schdep, Some(raw.code), env),
      a.arr, a.dep, a.arrCmnt, a.depCmnt, a.status)
  }

  // ---------------------------------------------------------------------------
  // The status as a function of which times are present
  // ---------------------------------------------------------------------------

  /** The status depends only on which of `estarr`, `postarr`, `estdep` and
      `postdep` are present, as this table says. */
  lemma StatusByPresence(raw: RawStation, env: Env)
    ensures var st := ParseRawStation(raw, env).status;
      && (st == Some(Departed) <==>
            raw.postdep.Some? && (raw.estdep.None? || (raw.estarr.None? && raw.postarr.None?)))
      && (st == Some(AtStation) <==>
            (raw.estarr.None? && raw.postarr.None? && raw.postdep.None?)
            || (raw.estarr.None? && raw.postarr.Some? && raw.estdep.Some?))
      && (st == Some(Enroute) <==>
            raw.estarr.Some? && ((raw.postarr.None? && raw.postdep.None?) || raw.estdep.Some?))
  {
  }

  /** A station that has an actual departure time is Departed unless an
      estimated departure is also present past the first station. */
  lemma DepartureRecordedMeansDeparted(raw: RawStation, env: Env)
    requires raw.postdep.Some? && raw.estdep.None?
    ensures ParseRawStation(raw, env).status == Some(Departed)
    ensures ParseRawStation(raw, env).dep == Some(ParseDate(raw.postdep, Some(raw.code), env))
  {
  }

  /** The first station (no arrival times) never gets an arrival. */
  lemma FirstStationHasNoArrival(raw: RawStation, env: Env)
    requires raw.estarr.None? && raw.postarr.None?
    ensures ParseRawStation(raw, env).arr.None? && ParseRawStation(raw, env).arrCmnt.None?
    ensures ParseRawStation(raw, env).dep.Some?
  {
  }

  /** The last station (no actual times) is always Enroute, with the
      estimated arrival and no departure. */
  lemma LastStationIsEnroute(raw: RawStation, env: Env)
    requires raw.estarr.Some? && raw.postarr.None? && raw.postdep.None?
    ensures ParseRawStation(raw, env).status == Some(Enroute)
    ensures ParseRawStation(raw, env).arr == Some(ParseDate(raw.estarr, Some(raw.code), env))
    ensures ParseRawStation(raw, env).dep.None?
  {
  }

  /** At the last station a missing scheduled arrival is not replaced by the
      scheduled departure: the arrival comment is the NaN one. */
  lemma LastStationIgnoresScheduledDeparture(raw: RawStation, env: Env)
    requires raw.estarr.Some? && raw.postarr.None? && raw.postdep.None?
    requires raw.scharr.None?
    ensures ParseRawStation(raw, env).arrCmnt == Some("NaN Minutes Early")
  {
  }

  /** At an interior station a missing scheduled arrival falls back to the
      scheduled departure. */
  lemma InteriorFallsBackToScheduledDeparture(raw: RawStation, env: Env)
    requires raw.estarr.Some? && raw.estdep.Some? && (raw.postarr.Some? || raw.postdep.Some?)
    requires raw.scharr.None?
    ensures ParseRawStation(raw, env).arrCmnt == Some(GenerateCmnt(raw.schdep, raw.estarr, Some(raw.code), env))
  {
  }

  /** A departed interior station without an actual arrival gets a null
      arrival and the NaN comment. */
  lemma DepartedWithoutArrival(raw: RawStation, env: Env)
    requires raw.estarr.Some? && raw.postarr.None? && raw.postdep.Some? && raw.estdep.None?
    ensures ParseRawStation(raw, env).status == Some(Departed)
    ensures ParseRawStation(raw, env).arr == Some(None)
    ensures ParseRawStation(raw, env).arrCmnt == Some("NaN Minutes Early")
  {
  }
}

=== FILE: strings.dfy ===
/** The few JavaScript string operations the feed and the scheduler rely on:
    `split` on one character, `trim`, ASCII lower-casing, decimal printing of
    numbers and `parseInt` of a digit string. */
module Strings {

  // ---------------------------------------------------------------------------
  // Splitting and joining on one separator character
  // ---------------------------------------------------------------------------

  /** Number of occurrences of `c` in `s`. */
  function Count(s: string, c: char): nat {
    if |s| == 0 then 0 else (if s[0] == c then 1 else 0) + Count(s[1..], c)
  }

  lemma {:induction false} CountAppend(a: string, b: string, c: char)
    ensures Count(a + b, c) == Count(a, c) + Count(b, c)
    decreases |a|
  {
    if |a| == 0 {
      assert a + b == b;
    } else {
      assert (a + b)[1..] == a[1..] + b;
      CountAppend(a[1..], b, c);
    }
  }

  /** `s.split(sep)` for a one-character separator: the pieces between
      consecutive separators, in order; there is always at least one piece. */
  function Split(s: string, sep: char): (parts: seq<string>)
    ensures |parts| == Count(s, sep) + 1
    ensures forall i :: 0 <= i < |parts| ==> sep !in parts[i]
    decreases |s|
  {
    if |s| == 0 then [""]
    else
      var rest := Split(s[1..], sep);
      if s[0] == sep then [""] + rest
      else [[s[0]] + rest[0]] + rest[1..]
  }

  /** Text without the separator splits into itself alone. */
  lemma {:induction false} SplitNoSeparator(s: string, sep: char)
    requires sep !in s
    ensures Split(s, sep) == [s]
    decreases |s|
  {
    if |s| > 0 {
      assert sep !in s[1..] by {
        forall k | 0 <= k < |s[1..]| ensures s[1..][k] != sep { assert s[1..][k] == s[k + 1]; }
      }
      SplitNoSeparator(s[1..], sep);
      assert [s[0]] + s[1..] == s;
    }
  }

  /** `parts.join(sep)`. */
  function Join(parts: seq<string>, sep: char): string
    requires |parts| >= 1
  {
    if |parts| == 1 then parts[0] else parts[0] + [sep] + Join(parts[1..], sep)
  }

  /** Joining the pieces of a split gives back the original string. */
  lemma {:induction false} JoinSplit(s: string, sep: char)
    ensures Join(Split(s, sep), sep) == s
    decreases |s|
  {
    if |s| == 0 {
    } else {
      var rest := Split(s[1..], sep);
      JoinSplit(s[1..], sep);
      if s[0] == sep {
        assert ([""] + rest)[1..] == rest;
      } else {
        var parts := [[s[0]] + rest[0]] + rest[1..];
        if |rest| == 1 {
          assert Join(parts, sep) == [s[0]] + rest[0];
        } else {
          assert parts[1..] == rest[1..];
          assert Join(rest, sep) == rest[0] + [sep] + Join(rest[1..], sep);
        }
        assert [s[0]] + s[1..] == s;
      }
    }
  }

  /** Splitting a string whose prefix `a` holds no separator puts `a` in front
      of the first piece of the rest. */
  lemma {:induction false} SplitPrefix(a: string, t: string, sep: char)
    requires sep !in a
    ensures Split(a + t, sep) == [a + Split(t, sep)[0]] + Split(t, sep)[1..]
    decreases |a|
  {
    if |a| == 0 {
      assert a + t == t;
      assert a + Split(t, sep)[0] == Split(t, sep)[0];
      assert [Split(t, sep)[0]] + Split(t, sep)[1..] == Split(t, sep);
    } else {
      assert (a + t)[0] == a[0];
      assert (a + t)[1..] == a[1..] + t;
      SplitPrefix(a[1..], t, sep);
      assert [a[0]] + (a[1..] + Split(t, sep)[0]) == a + Split(t, sep)[0];
    }
  }

  /** Splitting the join of separator-free pieces gives back the pieces. */
  lemma {:induction false} SplitJoin(parts: seq<string>, sep: char)
    requires |parts| >= 1
    requires forall i :: 0 <= i < |parts| ==> sep !in parts[i]
    ensures Split(Join(parts, sep), sep) == parts
    decreases |parts|
  {
    if |parts| == 1 {
      SplitPrefix(parts[0], "", sep);
      assert parts[0] + "" == parts[0];
    } else {
      var tail := Join(parts[1..], sep);
      SplitJoin(parts[1..], sep);
      assert ([sep] + tail)[1..] == tail;
      assert Split([sep] + tail, sep) == [""] + parts[1..];
      assert parts[0] + [sep] + tail == parts[0] + ([sep] + tail);
      SplitPrefix(parts[0], [sep] + tail, sep);
      assert parts[0] + "" == parts[0];
      assert [parts[0]] + parts[1..] == parts;
    }
  }

  /** The first piece of a split is the longest separator-free prefix. */
  lemma {:induction false} SplitHead(s: string, sep: char)
    ensures var h := Split(s, sep)[0];
      && |h| <= |s| && h == s[..|h|] && sep !in h
      && (|h| == |s| || s[|h|] == sep)
    decreases |s|
  {
    if |s| > 0 {
      SplitHead(s[1..], sep);
    }
  }

  // ---------------------------------------------------------------------------
  // Whitespace trimming (`String.prototype.trim`)
  // ---------------------------------------------------------------------------

  /** The characters `trim` removes: ECMAScript's WhiteSpace (tab, vertical
      tab, form feed, space, no-break space, byte-order mark and the Unicode
      space separators) and LineTerminator (LF, CR, LS, PS). */
  const JsWhitespace: set<char> := {
    '\t', '\n', '\U{000B}', '\U{000C}', '\r', ' ', '\U{00A0}', '\U{1680}',
    '\U{2000}', '\U{2001}', '\U{2002}', '\U{2003}', '\U{2004}', '\U{2005}',
    '\U{2006}', '\U{2007}', '\U{2008}', '\U{2009}', '\U{200A}',
    '\U{2028}', '\U{2029}', '\U{202F}', '\U{205F}', '\U{3000}', '\U{FEFF}'
  }

  predicate IsJsWhitespace(c: char) {
    c in JsWhitespace
  }

  function TrimStart(s: string): (r: string)
    ensures |r| <= |s| && r == s[|s| - |r|..]
    ensures forall i :: 0 <= i < |s| - |r| ==> IsJsWhitespace(s[i])
    ensures |r| == 0 || !IsJsWhitespace(r[0])
    decreases |s|
  {
    if |s| > 0 && IsJsWhitespace(s[0]) then TrimStart(s[1..]) else s
  }

  function TrimEnd(s: string): (r: string)
    ensures |r| <= |s| && r == s[..|r|]
    ensures forall i :: |r| <= i < |s| ==> IsJsWhitespace(s[i])
    ensures |r| == 0 || !IsJsWhitespace(r[|r| - 1])
    decreases |s|
  {
    if |s| > 0 && IsJsWhitespace(s[|s| - 1]) then TrimEnd(s[..|s| - 1]) else s
  }

  /** `s.trim()`: drops the whitespace at both ends. */
  function Trim(s: string): (r: string)
    ensures |r| <= |s|
    ensures |r| == 0 || (!IsJsWhitespace(r[0]) && !IsJsWhitespace(r[|r| - 1]))
  {
    TrimEnd(TrimStart(s))
  }

  /** A string with no whitespace character is its own trim. */
  lemma TrimNoWhitespace(s: string)
    requires forall i :: 0 <= i < |s| ==> !IsJsWhitespace(s[i])
    ensures Trim(s) == s
  {
  }

  // ---------------------------------------------------------------------------
  // Letters
  // ---------------------------------------------------------------------------

  predicate IsAsciiLetter(c: char) { ('a' <= c <= 'z') || ('A' <= c <= 'Z') }

  function LowerChar(c: char): char {
    if 'A' <= c <= 'Z' then (c as int + 32) as char else c
  }

  /** `s.toLowerCase()` restricted to ASCII: other characters are kept. */
  function ToLowerAscii(s: string): (r: string)
    ensures |r| == |s|
    ensures forall i :: 0 <= i < |s| ==> r[i] == LowerChar(s[i])
  {
    seq(|s|, i requires 0 <= i < |s| => LowerChar(s[i]))
  }

  // ---------------------------------------------------------------------------
  // Decimal numbers
  // ---------------------------------------------------------------------------

  predicate IsDigit(c: char) { '0' <= c <= '9' }

  predicate AllDigits(s: string) { forall i :: 0 <= i < |s| ==> IsDigit(s[i]) }

  function DigitChar(d: nat): (c: char)
    requires d < 10
    ensures IsDigit(c) && (c == '0' <==> d == 0)
  {
    ('0' as int + d) as char
  }

  function DigitValue(c: char): (d: nat)
    requires IsDigit(c)
    ensures d < 10 && DigitChar(d) == c
  {
    c as int - '0' as int
  }

  /** `parseInt` of a string of decimal digits (leading zeros allowed). */
  function DigitsValue(s: string): nat
    requires AllDigits(s)
  {
    if |s| == 0 then 0 else 10 * DigitsValue(s[..|s| - 1]) + DigitValue(s[|s| - 1])
  }

  /** `parseInt` skips leading zeros: "05" reads as 5. */
  lemma {:induction false} LeadingZeroIgnored(s: string)
    requires AllDigits(s)
    ensures AllDigits("0" + s) && DigitsValue("0" + s) == DigitsValue(s)
  {
    var z := "0" + s;
    assert AllDigits(z) by {
      forall i | 0 <= i < |z| ensures IsDigit(z[i]) {
        if i > 0 { assert z[i] == s[i - 1]; }
      }
    }
    if |s| > 0 {
      var init := s[..|s| - 1];
      assert AllDigits(init) by {
        forall i | 0 <= i < |init| ensures IsDigit(init[i]) { assert init[i] == s[i]; }
      }
      LeadingZeroIgnored(init);
      assert z[..|z| - 1] == "0" + init;
      assert z[|z| - 1] == s[|s| - 1];
    }
  }

  /** `String(n)` for a non-negative integer: the shortest decimal form, so it
      starts with `0` only when it is `"0"`; `parseInt` reads it back. */
  function NatToString(n: nat): (s: string)
    ensures |s| >= 1 && AllDigits(s)
    ensures s[0] != '0' || s == "0"
    ensures DigitsValue(s) == n
  {
    if n < 10 then [DigitChar(n)]
    else
      var s := NatToString(n / 10) + [DigitChar(n % 10)];
      assert s[..|s| - 1] == NatToString(n / 10);
      s
  }

  /** `String(v)` for an integer: a minus sign in front of negatives. */
  function IntToString(v: int): (s: string)
    ensures |s| >= 1
    ensures v >= 0 ==> AllDigits(s)
    ensures v < 0 ==> s[0] == '-' && AllDigits(s[1..])
    ensures v >= 0 ==> DigitsValue(s) == v
    ensures v < 0 ==> |s| >= 2 && DigitsValue(s[1..]) == -v
  {
    if v < 0 then
      var s := "-" + NatToString(-v);
      assert s[1..] == NatToString(-v);
      s
    else NatToString(v)
  }

  /** Distinct integers print differently. */
  lemma IntToStringInjective(v: int, w: int)
    requires IntToString(v) == IntToString(w)
    ensures v == w
  {
    if v < 0 && w < 0 {
      assert NatToString(-v) == IntToString(v)[1..] == IntToString(w)[1..] == NatToString(-w);
    }
  }

  /** Decimal text identifies the integer. */
  lemma IntToStringEquals(v: int, w: int)
    ensures IntToString(v) == IntToString(w) <==> v == w
  {
    if IntToString(v) == IntToString(w) {
      IntToStringInjective(v, w);
    }
  }

  /** Strings with a common suffix are equal when their concatenations are. */
  lemma AppendCancel(a: string, b: string, c: string)
    requires a + c == b + c
    ensures a == b
  {
    assert a == (a + c)[..|a|];
    assert b == (b + c)[..|b|];
  }
}

=== FILE: train_cache.dfy ===
/** The in-memory store of cache.ts: an object whose properties hold API
    responses, starting with `trains` set to `{ test: [] }`. `get` and `set`
    read and write a property by name. */
module TrainCache {
  import opened Wrappers

  /** A response: trains (or stations) keyed by number (or code). */
  type Response<T> = map<string, seq<T>>

  /** The cache's own properties. The class's mutating `get` and `set`
      become the value-passing `Get` and `Set` below: `Set` returns the
      updated cache instead of assigning a property of `this`. */
  datatype Cache<T> = Cache(fields: map<string, Response<T>>)

  /** The placeholder response the constructor stores under `trains`. */
  function Placeholder<T>(): (r: Response<T>)
    ensures r.Keys == {"test"} && r["test"] == []
  {
    map["test" := []]
  }

  /** `new cache()`. */
  function Init<T>(): (c: Cache<T>)
    ensures c.fields.Keys == {"trains"}
    ensures c.fields["trains"] == Placeholder()
  {
    Cache(map["trains" := Placeholder()])
  }

  /** `get(key)`: the stored response, `undefined` when never set. */
  function Get<T>(c: Cache<T>, key: string): (r: Option<Response<T>>)
    ensures r.Some? <==> key in c.fields
    ensures r.Some? ==> r.value == c.fields[key]
  {
    if key in c.fields then Some(c.fields[key]) else None
  }

  /** `set(key, data)`: replaces the property `key`. */
  function Set<T>(c: Cache<T>, key: string, data: Response<T>): (r: Cache<T>)
    ensures r.fields.Keys == c.fields.Keys + {key}
    ensures Get(r, key) == Some(data)
    ensures forall other :: other != key ==> Get(r, other) == Get(c, other)
  {
    Cache(c.fields[key := data])
  }

  /** A fresh cache answers `trains` with the placeholder and nothing else. */
  lemma InitAnswers<T>(key: string)
    ensures Get(Init<T>(), "trains") == Some(Placeholder())
    ensures key != "trains" ==> Get(Init<T>(), key).None?
  {
  }

  /** The last `set` of a key wins. */
  lemma SetSet<T>(c: Cache<T>, key: string, a: Response<T>, b: Response<T>)
    ensures Set(Set(c, key, a), key, b) == Set(c, key, b)
  {
    assert Set(Set(c, key, a), key, b).fields == Set(c, key, b).fields;
  }

  /** Writes to different keys commute. */
  lemma SetCommutes<T>(c: Cache<T>, k1: string, a: Response<T>, k2: string, b: Response<T>)
    requires k1 != k2
    ensures Set(Set(c, k1, a), k2, b) == Set(Set(c, k2, b), k1, a)
  {
    assert c.fields[k1 := a][k2 := b] == c.fields[k2 := b][k1 := a];
  }

  /** Setting a key to what it already holds changes nothing. */
  lemma SetIdempotent<T>(c: Cache<T>, key: string, data: Response<T>)
    requires Get(c, key) == Some(data)
    ensures Set(c, key, data) == c
  {
    assert Set(c, key, data).fields == c.fields;
  }

  /** After the first `set` of `trains`, the placeholder is gone. */
  lemma SetTrainsReplacesPlaceholder<T>(data: Response<T>)
    ensures Get(Set(Init<T>(), "trains", data), "trains") == Some(data)
    ensures Set(Init<T>(), "trains", data).fields.Keys == {"trains"}
  {
  }
}

=== FILE: wrappers.dfy ===
/** Failure-compatible wrappers shared by every module of the model. */
module Wrappers {

  /** An optional value. In the station records, `None` is JavaScript's
      `undefined` (a field never assigned) or `null`, as each field says. */
  datatype Option<+T> = None | Some(value: T)

  /** The outcome of an operation that may throw: `Failure` carries the error. */
  datatype Result<+R, +E> = Success(value: R) | Failure(error: E)
}
